=== FILE: README.md ===
# comprs in Dafny

A Dafny model of comprs, a quadtree image compressor. The model covers:

- the compressor's summed-area tables (`PrefixSum2D`);
- the image statistics built on them (`ImageData`: sum, average, and the variance metric);
- the quadtree arena with its max-heap of leaves and the `refine` step;
- the two renderers;
- the pure parts of the command-line driver: `hex_to_rgb` and the two refinement loops.

Modules follow the source files:

| module | file | contents |
|---|---|---|
| `Results` | — | `Option` and `Result` |
| `Rgb` | src/image.rs | the `RGB<T>` operators and the `as u8` cast |
| `Arith` | — | integer facts used by the proofs |
| `Psa` | src/psa.rs | `PrefixSum2D` |
| `Image` | src/image.rs | `ImageData` |
| `Nodes` | src/tree.rs | `Node` and `split` |
| `QuadTree` | src/tree.rs | `OrdNode`, `Tree`, `new`, `push_node`, `refine` |
| `Render` | src/tree.rs | `render_rgb` and `render_rgba` |
| `App` | src/main.rs | `hex_to_rgb` and the refinement loops of `real_main` |

How the source is represented:

- **Numbers.** Colour channels are unbounded naturals. A `u64` subtraction that would underflow panics in Rust with overflow checks on (and wraps otherwise), so absence of underflow is a precondition here (`Rgb.Le`). The `as u8` cast is written out as `% 256` (`Rgb.Truncate`).
- **The heap.** The `BinaryHeap` is a multiset of `(index, metric)` entries. Pop returns *some* entry of greatest metric, because `OrdNode` compares by metric alone and ties are broken arbitrarily.
- **Properties over the pixel grid.** Table-based results are stated against brute-force reference sums over the grid the tables were built from:
  - `Psa.QuerySum` equals `Psa.RectSum`;
  - `Image.Metric` equals `Image.MetricOf`.
- **The tree invariant (`QuadTree.Inv`).** It holds after `new` and after every `refine`. It says:
  - the arena is a quadtree over the image;
  - each split node's children are its four quadrants, in four consecutive slots appended to the arena when it was split;
  - the leaves tile the image;
  - the heap holds exactly one entry, with the right metric, for every leaf that can still be split, plus possibly some that cannot;
  - the leaf count is `1 + 3 * (nodes / 4)`.

Behaviour worth knowing:

- **`can_split`** demands `width() > 1 && height() > 1` (src/tree.rs:39-41). The distances are corner differences, so a region needs at least three rows and three columns to split. A 2×2 or 1×N region is never split.
- **Quadrant sizes.** The split point is `(top + bottom) / 2`, floored (src/tree.rs:49-50). The north and west quadrants therefore take the *larger* half: `ceil(rows / 2)` rows and `ceil(cols / 2)` columns (`Nodes.SplitHalves`).
- **`outline` argument.** src/main.rs calls `render_rgb(outline)` and `render_rgba(outline)`, but the renderers in src/tree.rs take no outline argument. The model follows the signatures of src/tree.rs.

## Model

| member | source | states |
|---|---|---|
| Rgb.Zero | src/image.rs:59-63 | `Zero::zero()` is the identity of colour addition on both sides |
| Rgb.Add | src/image.rs:35-40 | each channel of the sum is the sum of the channels |
| Rgb.AddAssoc | src/image.rs:35-40 | colour addition is associative |
| Rgb.Sub | src/image.rs:42-47 | defined only without underflow; the difference added back gives the minuend, channel by channel |
| Rgb.Div | src/image.rs:49-57 | each channel is the floor quotient: `q*n <= a < (q+1)*n` |
| Rgb.CompProd | src/image.rs:23-27 | each channel is the product of the channels |
| Rgb.Widen | src/image.rs:29-33 | an 8-bit colour widens to a colour with the same channels, all below 256 |
| Rgb.Truncate | src/tree.rs:186 | `as u8` keeps each channel modulo 256 |
| Rgb.WidenTruncate | src/tree.rs:186 | widening then casting back is the identity; casting a colour with channels below 256 loses nothing |
| Psa.New | src/psa.rs:24-46 | `Err("array has height 0")` on no rows; `Err("array has width 0")` on an empty first row; otherwise `Ok` with the first row's width, zero padding in row 0 and column 0, and entry `[i][j]` the sum of the top-left `i×j` block |
| Psa.BuildTable | src/psa.rs:34-39 | the nested build loops produce `height+1` rows of `width+1` entries, each the sum of the block above and left of it |
| Psa.BuildRow | src/psa.rs:36-38 | one pass of the inner loop turns the prefix sums of rows `< i` into those of rows `<= i` |
| Psa.BuildStep | src/psa.rs:37 | the recurrence `arr[i][j] + data[i][j+1] + data[i+1][j] - data[i][j]` never underflows and yields the block sum of `(i+1)×(j+1)` |
| Psa.Padding | src/psa.rs:34 | row 0 and column 0 of every table are zero |
| Psa.QueryIdentity | src/psa.rs:57-63 | both subtractions of `a + b - c - d` are underflow-free, and the result is the brute-force sum of the rectangle |
| Psa.QuerySum | src/psa.rs:56-64 | the inclusive rectangle `tl..=br` sums to the brute-force sum of the grid the table was built from |
| Image.Squares | src/image.rs:75-78 | the squared grid has the grid's rows, each the channelwise square of the corresponding row |
| Image.SquareRow | src/image.rs:75-78 | each squared pixel is the channelwise square of the pixel |
| Image.New | src/image.rs:73-86 | fails with `new`'s messages exactly when `PrefixSum2D::new` fails; otherwise holds the tables of the pixels and of their squares, with the grid's height and width |
| Image.ValidTables | src/image.rs:80-85 | both tables of an image are valid tables whose size is the image's |
| Image.Sum | src/image.rs:117-119 | the brute-force sum of the pixels in `tl..=br` |
| Image.Average | src/image.rs:121-130 | the brute-force sum divided, channel by channel and with truncation, by the pixel count |
| Image.AverageWithin | src/image.rs:121-130 | a truncated mean lies within any bounds that hold for every pixel of the rectangle |
| Image.AverageIsByte | src/image.rs:121-130 | over an 8-bit image every average fits in 8 bits, so the renderers' `as u8` is lossless |
| Image.UniformAverage | src/image.rs:121-130 | a one-colour rectangle averages to that colour |
| Image.MeanSquareBound | src/image.rs:139 | `floor(S/n)^2 <= floor(S2/n)`, so the variance subtraction never underflows |
| Image.Count | src/image.rs:122-123 | a non-empty rectangle has a positive pixel count, `height × width` |
| Image.CountIsArea | src/image.rs:122-123 | the pixel count is the number of cells the brute-force window sum adds up, one row of the window's width per row |
| Image.MeanColor | src/image.rs:136 | each channel of `mean` is the brute-force channel sum of the rectangle divided by the pixel count, truncated |
| Image.SquareMean | src/image.rs:137-139 | each channel of `square_sum / (height * width)` is the brute-force sum of the squared pixels of the rectangle divided by the pixel count, truncated |
| Image.MetricAgrees | src/image.rs:136-140 | the table-based means feed a non-negative variance whose weighted sum is the brute-force metric |
| Image.Metric | src/image.rs:132-141 | the metric equals `n × Σ_channels (floor(S2/n) - floor(S/n)^2)`, computed from brute-force sums; the final `(r + g + b) * n` of line 140 is the helper `Image.Weighted` |
| Image.UniformMetric | src/image.rs:132-141 | a one-colour rectangle has metric 0 |
| Image.SinglePixelMetric | src/image.rs:132-141 | a single pixel has metric 0 |
| Nodes.Leaf | src/tree.rs:23-29 | a childless node with exactly the given corners |
| Nodes.Height | src/tree.rs:31-33 | the row distance between the corners |
| Nodes.Width | src/tree.rs:35-37 | the column distance between the corners |
| Nodes.CanSplit | src/tree.rs:39-41 | `width() > 1 && height() > 1` holds exactly when the region has at least three rows and at least three columns |
| Nodes.Split | src/tree.rs:43-64 | `None` exactly when `can_split` fails; otherwise four proper leaves, in nw/ne/sw/se order, whose union is the parent and no two of which overlap |
| Nodes.SplitHalves | src/tree.rs:49-61 | north/west quadrants get `ceil` of the rows/columns and south/east get `floor`; every quadrant is strictly smaller than its parent |
| QuadTree.Entry | src/tree.rs:72-81 | `OrdNode::new` keeps the node index, and its metric is the brute-force metric of the node's rectangle |
| QuadTree.Eq | src/tree.rs:83-87 | two entries are equal exactly when the order ranks them the same |
| QuadTree.Cmp | src/tree.rs:91-101 | entries are ordered by metric alone |
| QuadTree.CmpTotalPreorder | src/tree.rs:83-101 | the order is a total preorder whose ties are exactly `eq`, and distinct nodes can tie |
| QuadTree.PopMax | src/tree.rs:136 | `None` exactly on an empty heap; otherwise an entry nothing in the remaining heap exceeds, removed once |
| QuadTree.EntryScore | src/tree.rs:72-81 | `OrdNode::new` carries the index and the node's metric, which is the brute-force metric of its pixels |
| QuadTree.NewTree | src/tree.rs:113-126 | one leaf covering the whole image, its entry alone in the heap, and the tree invariant holds |
| QuadTree.PushNode | src/tree.rs:128-132 | appends the node, returns its index, and changes nothing else |
| QuadTree.SplitLeaf | src/tree.rs:140-152 | the four quadrants are appended and recorded as children of the popped leaf |
| QuadTree.PushEntry | src/tree.rs:155-156 | one `pq.push(OrdNode::new(..))` adds exactly one entry, carrying the new node's index and metric |
| QuadTree.PushChildren | src/tree.rs:154-157 | the heap gains exactly the four entries of the new leaves, each with its metric |
| QuadTree.PushEntries | src/tree.rs:154-157 | after the pushes, the heap is the popped-down heap plus the entries of the four quadrants |
| QuadTree.PopSplittable | src/tree.rs:135-161 | runs dry exactly when no leaf can be split; otherwise stops at a splittable leaf of greatest metric, with the remaining heap still holding every other splittable leaf |
| QuadTree.SplitShape | src/tree.rs:140-152 | splitting a leaf keeps the arena a quadtree whose leaves tile the image |
| QuadTree.SplitLeafCount | src/tree.rs:140-152 | a split adds four nodes and three leaves |
| QuadTree.SplitStructure | src/tree.rs:134-162 | a successful step keeps the whole invariant, heap included, whatever unsplittable entries were dropped |
| QuadTree.DrainedStructure | src/tree.rs:136-137 | with nothing left to split, the drained tree still satisfies the invariant |
| QuadTree.Refine | src/tree.rs:134-162 | keeps the invariant; `Err("no more nodes to refine")` with the heap drained exactly when no leaf can be split; otherwise it has split a splittable leaf of greatest metric and added four nodes |
| Render.Blank | src/tree.rs:166 | a canvas of the image's size with every pixel blank |
| Render.PaintRect | src/tree.rs:181-189 | the two `put_pixel` loops set exactly the pixels of the rectangle and leave every other pixel unchanged |
| Render.PaintNode | src/tree.rs:170-191 | one turn of the walk: if node `i` is a leaf its rectangle is painted, and afterwards every pixel shows the last of nodes `0..=i` that paints it, or the blank colour |
| Render.PaintLeaves | src/tree.rs:168-191 | after the walk, each pixel carries the colour of the last leaf that holds it, or the blank colour |
| Render.LastLeafUnique | src/tree.rs:168-191 | with disjoint leaves, the leaf that holds a pixel is the only one that paints it |
| Render.PaintedLeaves | src/tree.rs:168-191 | every pixel of every leaf shows that leaf's colour |
| Render.LeafColors | src/tree.rs:180 | each leaf's colour is the conversion of its average |
| Render.RenderRgb | src/tree.rs:164-194 | an image-sized canvas on which every pixel of every leaf is the leaf's average, cut to 8 bits |
| Render.ToRgba | src/tree.rs:218 | the channels cut to 8 bits, at opacity `MAX_ALPHA` = 100 |
| Render.RenderRgba | src/tree.rs:196-226 | as `render_rgb`, with each painted pixel at opacity `MAX_ALPHA` |
| App.TrimHashes | src/main.rs:49 | removes a prefix of `#`s and leaves no leading `#` |
| App.TrimAfterHashes | src/main.rs:49 | any number of leading `#`s is stripped and nothing after them |
| App.ParseU8Hex | src/main.rs:54-56 | a two-character field is accepted exactly when it is two hex digits or `+` and one, and it denotes their value |
| App.HexToRgb | src/main.rs:48-59 | `Err("hex code must be 6 characters long")` unless six characters remain after the `#`s; `Err("invalid hex code")` when a field fails to parse; otherwise the colour the three fields spell |
| App.HexToRgbSpells | src/main.rs:48-59 | `hex_to_rgb` returns `Ok(c)` exactly when the trimmed string spells `c` |
| App.HexRoundTrip | src/main.rs:48-59 | any colour written as six hex digits, in either case and after any number of `#`s, parses back to itself |
| App.FrameCountIsQuotient | src/main.rs:173-181 | the frame schedule `App.FrameCount` (the first frame plus one at every step `i` with `i % delta == 0`) keeps `1 + iterations / delta` frames |
| App.Frame | src/main.rs:171-172 | a frame is the `render_rgba` picture of the tree (`App.Depicts`): the size of the image, every leaf pixel in the leaf's average colour at opacity 100 |
| App.Capture | src/main.rs:178-181 | a frame is appended exactly when `delta` divides `i`, it is the `render_rgba` picture of the current tree, and earlier frames are kept |
| App.GifStep | src/main.rs:173-181 | one refinement, then, when `delta` divides `i`, a frame that is the `render_rgba` picture of the refined tree; an error stops the loop with the frames unchanged, the heap drained and no leaf left to split |
| App.Start | src/main.rs:167 | the driver's tree starts as a single leaf over the whole image, with the tree invariant holding |
| App.GifLoop | src/main.rs:169-182 | from any tree satisfying the invariant: a first frame that is the `render_rgba` picture of that tree, then on success `iterations` refinements adding `4 × iterations` nodes and `1 + iterations / delta` frames of the image's size; on failure the `refine` error with no leaf left to split |
| App.FirstFrameFlat | src/main.rs:167-172 | the picture of the one-leaf tree `Tree::new` builds is a single colour, the average of the whole image |
| App.GifRun | src/main.rs:167-182 | starting from `Tree::new` of the image, a first frame of one colour, the image's average; on success: `iterations` refinements, `1 + 4 × iterations` nodes and `1 + iterations / delta` image-sized frames; on failure: the `refine` error, with no leaf left to split |
| App.Refinements | src/main.rs:197-202 | `iterations` refinements keep the invariant and add `4 × iterations` nodes, or stop at the `refine` error |
| App.Still | src/main.rs:203 | the saved picture is `render_rgb` of the final tree (`App.Paints`): the size of the image, every leaf pixel in the leaf's average colour cut to 8 bits |
| App.StillRun | src/main.rs:167-206 | starting from `Tree::new` of the image: `1 + 4 × iterations` nodes and a picture exactly on success, painting every leaf with its average colour, cut to 8 bits |

## Left out

- **Image loading (src/image.rs:88-107).** `ImageData::from_path` uses the file system and the `image` crate, so it is left out. The model starts from the decoded pixel grid, and `Image.New` takes that grid.
- **Driver I/O (src/main.rs).** The model omits the argument loop (`real_main`, src/main.rs:61-131), `print_usage`, `file_without_extension` and output naming. All of these are string and path handling around the file system. GIF encoding, `save` and `println!` are I/O and are also left out.
- **Integer widths.** Channels and indices are unbounded. A `u64` overflow in the sums or squares of a huge image, and `usize`/`u32` overflow, are not modelled. The model does keep `u64` underflow as a precondition, and models `as u8` as truncation.
- **Traversal order.** The renderers' `VecDeque` breadth-first walk is modelled as a walk over the arena in index order. The invariant gives:
  - every node after the root is a child of an earlier node;
  - the leaves are disjoint.

  Both walks therefore paint each leaf pixel with that leaf's colour, and the order cannot be observed.
- **Heap internals.** The `BinaryHeap` layout is replaced by a multiset, and `pop`'s choice among equal metrics is left arbitrary.
- **Characters.** In `hex_to_rgb` every character stands for one byte. Rust's panic when `&hex[0..2]` slices inside a multi-byte character is not modelled.
- **Ragged rows.** `Psa.New` and `Image.New` require every row to be at least as long as the first. This is exactly what keeps the build loop's `arr[i][j]` in bounds; shorter rows make the source panic.
- Psa.QuerySum: requires `tl <= br` inside the table. Every caller passes a non-empty in-image rectangle, and `average` and `metric` would underflow on an inverted one.
- App.GifRun: states the pixels of the first frame only; every later frame is stated as the picture of the tree it was taken from by `App.GifStep`, and those intermediate trees are not returned.
- App.GifLoop: states the pixels of the first frame only, for the same reason as `App.GifRun`.
- App.GifRun: requires `delta > 0` whenever the loop runs at least once. With `delta == 0` the source still runs the first `refine`, returning its error if it fails (a 2×2 image, say) and otherwise panicking on `i % delta`; neither outcome of that path is modelled.
- **Outline colour.** The parsed outline colour is not passed to the renderers, because src/tree.rs's renderers take no such argument.

=== FILE: app.dfy ===
/** The pure parts of src/main.rs: `hex_to_rgb`, which reads an outline
    colour written as `#rrggbb`, and the two refinement loops of
    `real_main`, one saving a single picture and one capturing GIF frames
    every `delta` steps.  Strings are sequences of one-byte characters. */
module App {
  import opened Results
  import opened Rgb
  import Arith
  import Nodes
  import Image
  import QuadTree
  import Render

  /** `trim_start_matches('#')`: every leading `#` removed. */
  function TrimHashes(s: string): (r: string)
    ensures |r| <= |s| && r == s[|s| - |r|..]
    ensures forall i | 0 <= i < |s| - |r| :: s[i] == '#'
    ensures |r| > 0 ==> r[0] != '#'
  {
    if |s| > 0 && s[0] == '#' then TrimHashes(s[1..]) else s
  }

  function Hashes(k: nat): (s: string)
    ensures |s| == k && forall i | 0 <= i < k :: s[i] == '#'
  {
    seq(k, _ => '#')
  }

  /** Any number of leading `#` is stripped, and nothing after them. */
  lemma {:induction false} TrimAfterHashes(k: nat, s: string)
    requires |s| > 0 ==> s[0] != '#'
    ensures TrimHashes(Hashes(k) + s) == s
  {
    if k > 0 {
      assert (Hashes(k) + s)[1..] == Hashes(k - 1) + s;
      TrimAfterHashes(k - 1, s);
    } else {
      assert Hashes(k) + s == s;
    }
  }

  /** The digits `char::to_digit(16)` accepts, in either case. */
  predicate IsHexDigit(c: char) {
    '0' <= c <= '9' || 'a' <= c <= 'f' || 'A' <= c <= 'F'
  }

  function DigitValue(c: char): (d: nat)
    requires IsHexDigit(c)
    ensures d < 16
  {
    if '0' <= c <= '9' then c as int - '0' as int
    else if 'a' <= c <= 'f' then c as int - 'a' as int + 10
    else c as int - 'A' as int + 10
  }

  /** The digit of value `d`, lower- or upper-case. */
  function HexChar(d: nat, upper: bool): (c: char)
    requires d < 16
    ensures IsHexDigit(c) && DigitValue(c) == d
    ensures upper ==> !('a' <= c <= 'f')
    ensures !upper ==> !('A' <= c <= 'F')
  {
    if d < 10 then ('0' as int + d) as char
    else if upper then ('A' as int + d - 10) as char
    else ('a' as int + d - 10) as char
  }

  predicate AllHex(s: string) {
    forall i | 0 <= i < |s| :: IsHexDigit(s[i])
  }

  /** The number a string of hex digits denotes, most significant first. */
  function HexValue(s: string): nat
    requires AllHex(s)
  {
    if |s| == 0 then 0 else 16 * HexValue(s[..|s| - 1]) + DigitValue(s[|s| - 1])
  }

  /** One or two digits denote their plain positional value. */
  lemma HexValueShort(s: string)
    requires AllHex(s)
    ensures |s| == 1 ==> HexValue(s) == DigitValue(s[0])
    ensures |s| == 2 ==> HexValue(s) == 16 * DigitValue(s[0]) + DigitValue(s[1]) < 256
  {
    if |s| == 2 {
      assert s[..1][..0] == [];
    } else if |s| == 1 {
      assert s[..0] == [];
    }
  }

  /** `u8::from_str_radix(s, 16)`: an optional leading `+`, then at least
      one hex digit, denoting a value below 256.  The empty string, a lone
      sign, a `-`, any other character and overflow all fail. */
  function ParseU8Hex(s: string): (r: Option<Byte>)
    ensures |s| == 2 ==> (r.Some? <==> PairOk(s))
    ensures |s| == 2 && r.Some? ==> PairSpells(s, r.value)
  {
    var digits := if |s| > 0 && s[0] == '+' then s[1..] else s;
    if |digits| == 0 || !AllHex(digits) then None
    else
      HexValueShort(digits);
      var v := HexValue(digits);
      if v < 256 then Some(v) else None
  }

  /** A two-character field `from_str_radix` accepts: two hex digits, or a
      `+` and one. */
  predicate PairOk(s: string)
    requires |s| == 2
  {
    (IsHexDigit(s[0]) || s[0] == '+') && IsHexDigit(s[1])
  }

  /** The two-character field `s` denotes the byte `v`. */
  predicate PairSpells(s: string, v: nat)
    requires |s| == 2
  {
    || (IsHexDigit(s[0]) && IsHexDigit(s[1]) && v == 16 * DigitValue(s[0]) + DigitValue(s[1]))
    || (s[0] == '+' && IsHexDigit(s[1]) && v == DigitValue(s[1]))
  }

  /** Six characters whose three fields denote the channels of `c`. */
  predicate Spells(h: string, c: RGB8) {
    |h| == 6 && PairSpells(h[0..2], c.r) && PairSpells(h[2..4], c.g) && PairSpells(h[4..6], c.b)
  }

  /** `hex_to_rgb`: strips the leading `#`s, demands exactly six characters
      left, and reads them as three two-character base-16 fields. */
  function HexToRgb(hex: string): (res: Result<RGB8>)
    ensures var h := TrimHashes(hex);
            && (|h| != 6 ==> res == Err("hex code must be 6 characters long"))
            && (|h| == 6 ==> (res.Ok? <==> PairOk(h[0..2]) && PairOk(h[2..4]) && PairOk(h[4..6])))
            && (|h| == 6 && res.Err? ==> res.msg == "invalid hex code")
            && (res.Ok? ==> Spells(h, res.value))
  {
    var h := TrimHashes(hex);
    if |h| != 6 then Err("hex code must be 6 characters long")
    else
      var rs, gs, bs := h[0..2], h[2..4], h[4..6];
      assert |rs| == 2 && |gs| == 2 && |bs| == 2;
      var r := ParseU8Hex(rs);
      var g := ParseU8Hex(gs);
      var b := ParseU8Hex(bs);
      if r.None? || g.None? || b.None? then Err("invalid hex code")
      else Ok(RGB8(r.value, g.value, b.value))
  }

  /** A field determines its byte: reading is unambiguous. */
  lemma PairSpellsUnique(s: string, v: nat, w: nat)
    requires |s| == 2 && PairSpells(s, v) && PairSpells(s, w)
    ensures v == w
  {
  }

  /** `hex_to_rgb` accepts exactly the spellings of a colour, and returns
      that colour. */
  lemma HexToRgbSpells(hex: string, c: RGB8)
    ensures HexToRgb(hex) == Ok(c) <==> Spells(TrimHashes(hex), c)
  {
    var h := TrimHashes(hex);
    if Spells(h, c) {
      assert PairOk(h[0..2]) && PairOk(h[2..4]) && PairOk(h[4..6]);
      var res := HexToRgb(hex);
      PairSpellsUnique(h[0..2], res.value.r, c.r);
      PairSpellsUnique(h[2..4], res.value.g, c.g);
      PairSpellsUnique(h[4..6], res.value.b, c.b);
    }
  }

  /** A byte as two hex digits, high nibble first. */
  function HexPair(v: Byte, upper: bool): (p: string)
    ensures |p| == 2 && IsHexDigit(p[0]) && PairSpells(p, v)
  {
    Arith.DivModUnique(v, 16, v / 16, v % 16);
    [HexChar(v / 16, upper), HexChar(v % 16, upper)]
  }

  /** A colour as six hex digits, `rrggbb`. */
  function ToHex(c: RGB8, upper: bool): (h: string)
    ensures Spells(h, c) && IsHexDigit(h[0])
  {
    var h := HexPair(c.r, upper) + HexPair(c.g, upper) + HexPair(c.b, upper);
    assert h[0..2] == HexPair(c.r, upper) && h[2..4] == HexPair(c.g, upper) && h[4..6] == HexPair(c.b, upper);
    h
  }

  /** Round trip: any colour written as six hex digits, in either case and
      after any number of `#`, reads back as itself. */
  lemma HexRoundTrip(c: RGB8, upper: bool, k: nat)
    ensures HexToRgb(Hashes(k) + ToHex(c, upper)) == Ok(c)
  {
    var h := ToHex(c, upper);
    TrimAfterHashes(k, h);
    HexToRgbSpells(Hashes(k) + h, c);
  }

  /** Frames the GIF loop holds after `n` steps with stride `d`: the first
      picture, and one more at every step `i` with `i % d == 0`. */
  function FrameCount(n: nat, d: nat): nat
    requires n > 0 ==> d > 0
  {
    if n == 0 then 1 else FrameCount(n - 1, d) + (if n % d == 0 then 1 else 0)
  }

  /** Over `1..=n` the multiples of `d` number `n / d`. */
  lemma {:induction false} FrameCountIsQuotient(n: nat, d: nat)
    requires d > 0
    ensures FrameCount(n, d) == 1 + n / d
  {
    if n > 0 {
      FrameCountIsQuotient(n - 1, d);
      Arith.DivStep(n - 1, d);
    }
  }

  /** `buf` is a picture of `t` as `render_rgba` draws it: the size of the
      image, with every pixel of every leaf in the leaf's average colour. */
  ghost predicate Depicts(buf: Render.Canvas<Render.RGBA8>, t: QuadTree.Tree)
    requires QuadTree.Inv(t)
  {
    && Render.HasDims(buf, t.dimensions)
    && forall l: nat, y: nat, x: nat | QuadTree.IsLeaf(t.nodes, l) && Nodes.Contains(t.nodes[l], (y, x)) ::
         && QuadTree.InDims((y, x), t.dimensions)
         && buf[y][x] == Render.ToRgba(Image.Average(t.imageData, t.nodes[l].topLeft, t.nodes[l].bottomRight))
  }

  /** `Frame::new(tree.render_rgba())`: one GIF frame, the size of the
      image, showing every leaf in its average colour. */
  method Frame(t: QuadTree.Tree) returns (buf: Render.Canvas<Render.RGBA8>)
    requires QuadTree.Inv(t)
    ensures Render.HasDims(buf, t.dimensions)
    ensures Depicts(buf, t)
  {
    QuadTree.InvRenderable(t);
    buf := Render.RenderRgba(t);
  }

  /** Step `i` of the GIF loop: one `refine`, and a frame when `delta`
      divides `i`. */
  method GifStep(t: QuadTree.Tree, frames: seq<Render.Canvas<Render.RGBA8>>, i: nat, delta: nat)
    returns (next: QuadTree.Tree, frames': seq<Render.Canvas<Render.RGBA8>>, res: Result<()>)
    requires QuadTree.Inv(t) && delta > 0
    requires forall k | 0 <= k < |frames| :: Render.HasDims(frames[k], t.dimensions)
    ensures QuadTree.Inv(next) && next.imageData == t.imageData && next.dimensions == t.dimensions
    ensures forall k | 0 <= k < |frames'| :: Render.HasDims(frames'[k], t.dimensions)
    ensures res.Ok? ==> |next.nodes| == |t.nodes| + 4
    ensures res.Ok? ==> |frames'| == |frames| + (if i % delta == 0 then 1 else 0) && frames'[..|frames|] == frames
    ensures res.Ok? && i % delta == 0 ==> Depicts(frames'[|frames|], next)
    ensures res.Err? ==> res.msg == "no more nodes to refine" && next.pq == multiset{} && frames' == frames
    ensures res.Err? ==> forall j: nat :: !QuadTree.Splittable(next.nodes, j)
  {
    frames' := frames;
    next, res := QuadTree.Refine(t);
    if res.Ok? {
      frames' := Capture(next, t.dimensions, frames, i, delta);
    }
  }

  /** `if i % delta == 0 { frames.push(..) }`: the frame of step `i` is
      kept when `delta` divides `i`. */
  method Capture(t: QuadTree.Tree, dims: (nat, nat), frames: seq<Render.Canvas<Render.RGBA8>>, i: nat, delta: nat)
    returns (frames': seq<Render.Canvas<Render.RGBA8>>)
    requires QuadTree.Inv(t) && t.dimensions == dims && delta > 0
    requires forall k | 0 <= k < |frames| :: Render.HasDims(frames[k], dims)
    ensures forall k | 0 <= k < |frames'| :: Render.HasDims(frames'[k], dims)
    ensures |frames'| == |frames| + (if i % delta == 0 then 1 else 0) && frames'[..|frames|] == frames
    ensures i % delta == 0 ==> Depicts(frames'[|frames|], t)
  {
    frames' := frames;
    if i % delta == 0 {
      var buf := Frame(t);
      frames' := frames + [buf];
    }
  }

  /** `Tree::new(data)` at the start of both branches of `real_main`. */
  method Start(img: Image.ImageData) returns (t: QuadTree.Tree)
    requires Image.Valid(img)
    ensures QuadTree.Inv(t) && t.imageData == img && t.dimensions == (img.height, img.width)
    ensures |t.nodes| == 1 && t.nodes[0] == Nodes.Leaf((0, 0), (img.height - 1, img.width - 1))
  {
    t := QuadTree.NewTree(img);
  }

  /** The frames and refinements of the GIF branch of `real_main`, from the
      tree `t`: a frame of it, then `iterations` refinements with a frame
      after every `delta`-th.  A failed `refine` ends the run with its error.
      `delta` must be non-zero once the loop runs, since `i % delta` panics
      otherwise. */
  method GifLoop(t: QuadTree.Tree, iterations: nat, delta: nat)
    returns (final: QuadTree.Tree, frames: seq<Render.Canvas<Render.RGBA8>>, res: Result<()>)
    requires QuadTree.Inv(t)
    requires iterations > 0 ==> delta > 0
    ensures QuadTree.Inv(final) && final.imageData == t.imageData && final.dimensions == t.dimensions
    ensures res.Ok? ==> |frames| == FrameCount(iterations, delta)
    ensures res.Ok? ==> |final.nodes| == |t.nodes| + 4 * iterations
    ensures forall k | 0 <= k < |frames| :: Render.HasDims(frames[k], t.dimensions)
    ensures |frames| > 0 && Depicts(frames[0], t)
    ensures res.Err? ==> res.msg == "no more nodes to refine" && forall i: nat :: !QuadTree.Splittable(final.nodes, i)
  {
    final := t;
    var first := Frame(t);
    frames := [first];
    var i := 1;
    while i <= iterations
      invariant 1 <= i <= iterations + 1
      invariant |frames| > 0 && frames[0] == first
      invariant QuadTree.Inv(final) && final.imageData == t.imageData && final.dimensions == t.dimensions
      invariant |final.nodes| == |t.nodes| + 4 * (i - 1)
      invariant |frames| == FrameCount(i - 1, delta)
      invariant forall k | 0 <= k < |frames| :: Render.HasDims(frames[k], t.dimensions)
    {
      var r;
      final, frames, r := GifStep(final, frames, i, delta);
      if r.Err? {
        return final, frames, r;
      }
      i := i + 1;
    }
    res := Ok(());
  }

  /** A picture of the one-leaf tree `Tree::new` builds is a single colour:
      the average of the whole image. */
  lemma FirstFrameFlat(buf: Render.Canvas<Render.RGBA8>, t: QuadTree.Tree)
    requires QuadTree.Inv(t) && Depicts(buf, t)
    requires |t.nodes| == 1 && t.nodes[0] == Nodes.Leaf((0, 0), (t.dimensions.0 - 1, t.dimensions.1 - 1))
    ensures forall y: nat, x: nat | y < t.dimensions.0 && x < t.dimensions.1 ::
              buf[y][x] == Render.ToRgba(Image.Average(t.imageData, (0, 0), (t.dimensions.0 - 1, t.dimensions.1 - 1)))
  {
    forall y: nat, x: nat | y < t.dimensions.0 && x < t.dimensions.1
      ensures buf[y][x] == Render.ToRgba(Image.Average(t.imageData, (0, 0), (t.dimensions.0 - 1, t.dimensions.1 - 1)))
    {
      assert QuadTree.IsLeaf(t.nodes, 0) && Nodes.Contains(t.nodes[0], (y, x));
    }
  }

  /** The GIF branch of `real_main`: `GifLoop` from the tree of the image. */
  method GifRun(img: Image.ImageData, iterations: nat, delta: nat)
    returns (final: QuadTree.Tree, frames: seq<Render.Canvas<Render.RGBA8>>, res: Result<()>)
    requires Image.Valid(img)
    requires iterations > 0 ==> delta > 0
    ensures QuadTree.Inv(final) && final.imageData == img && final.dimensions == (img.height, img.width)
    ensures res.Ok? ==> |frames| == FrameCount(iterations, delta)
    ensures res.Ok? ==> |final.nodes| == 1 + 4 * iterations
    ensures forall k | 0 <= k < |frames| :: Render.HasDims(frames[k], (img.height, img.width))
    ensures |frames| > 0 && Render.HasDims(frames[0], (img.height, img.width))
    ensures |frames| > 0 ==> forall y: nat, x: nat | y < img.height && x < img.width ::
              frames[0][y][x] == Render.ToRgba(Image.Average(img, (0, 0), (img.height - 1, img.width - 1)))
    ensures res.Err? ==> res.msg == "no more nodes to refine" && forall i: nat :: !QuadTree.Splittable(final.nodes, i)
  {
    var t := Start(img);
    final, frames, res := GifLoop(t, iterations, delta);
    FirstFrameFlat(frames[0], t);
  }

  /** The refinement loop of the still-image branch of `real_main`:
      `iterations` calls of `refine`, stopping at the first error. */
  method Refinements(t: QuadTree.Tree, iterations: nat) returns (final: QuadTree.Tree, res: Result<()>)
    requires QuadTree.Inv(t)
    ensures QuadTree.Inv(final) && final.imageData == t.imageData && final.dimensions == t.dimensions
    ensures res.Ok? ==> |final.nodes| == |t.nodes| + 4 * iterations
    ensures res.Err? ==> res.msg == "no more nodes to refine" && forall i: nat :: !QuadTree.Splittable(final.nodes, i)
  {
    final := t;
    var i := 1;
    while i <= iterations
      invariant 1 <= i <= iterations + 1
      invariant QuadTree.Inv(final) && final.imageData == t.imageData && final.dimensions == t.dimensions
      invariant |final.nodes| == |t.nodes| + 4 * (i - 1)
    {
      var r;
      final, r := QuadTree.Refine(final);
      if r.Err? {
        return final, r;
      }
      i := i + 1;
    }
    res := Ok(());
  }

  /** `pic` is a picture of `t` as `render_rgb` draws it: the size of the
      image, with every pixel of every leaf in the leaf's average colour,
      cut to 8 bits. */
  ghost predicate Paints(pic: Render.Canvas<RGB8>, t: QuadTree.Tree)
    requires QuadTree.Inv(t)
  {
    && Render.HasDims(pic, t.dimensions)
    && forall l: nat, y: nat, x: nat | QuadTree.IsLeaf(t.nodes, l) && Nodes.Contains(t.nodes[l], (y, x)) ::
         && QuadTree.InDims((y, x), t.dimensions)
         && pic[y][x] == Truncate(Image.Average(t.imageData, t.nodes[l].topLeft, t.nodes[l].bottomRight))
  }

  /** `tree.render_rgb()` of the still-image branch. */
  method Still(t: QuadTree.Tree) returns (pic: Render.Canvas<RGB8>)
    requires QuadTree.Inv(t)
    ensures Render.HasDims(pic, t.dimensions)
    ensures Paints(pic, t)
  {
    QuadTree.InvRenderable(t);
    pic := Render.RenderRgb(t);
  }

  /** The still-image branch of `real_main`: the tree of the image,
      `iterations` refinements, then one `render_rgb` of the result.  A
      failed `refine` ends the run with its error and no picture. */
  method StillRun(img: Image.ImageData, iterations: nat)
    returns (final: QuadTree.Tree, picture: Option<Render.Canvas<RGB8>>, res: Result<()>)
    requires Image.Valid(img)
    ensures QuadTree.Inv(final) && final.imageData == img && final.dimensions == (img.height, img.width)
    ensures res.Ok? <==> picture.Some?
    ensures res.Ok? ==> |final.nodes| == 1 + 4 * iterations
    ensures res.Err? ==> res.msg == "no more nodes to refine" && forall i: nat :: !QuadTree.Splittable(final.nodes, i)
    ensures picture.Some? ==> Render.HasDims(picture.value, (img.height, img.width)) && Paints(picture.value, final)
  {
    var t := Start(img);
    final, res := Refinements(t, iterations);
    if res.Err? {
      return final, None, res;
    }
    var out := Still(final);
    picture := Some(out);
  }
}

=== FILE: arith.dfy ===
/** Facts about natural-number multiplication and truncating division that
    the solver does not find unaided. */
module Arith {

  lemma MulLe(a: nat, b: nat, c: nat)
    requires a <= b
    ensures a * c <= b * c
  {
  }

  /** `q` is below the quotient whenever `q * n` fits in `x`. */
  lemma DivAtLeast(x: nat, n: nat, q: nat)
    requires n > 0 && q * n <= x
    ensures q <= x / n
  {
    if x / n < q {
      MulLe(x / n + 1, q, n);
    }
  }

  /** `q` bounds the quotient whenever `x` does not exceed `q * n`. */
  lemma DivAtMost(x: nat, n: nat, q: nat)
    requires n > 0 && x <= q * n
    ensures x / n <= q
  {
    if x / n > q {
      MulLe(q + 1, x / n, n);
    }
  }

  /** Quotient and remainder are unique. */
  lemma DivModUnique(x: nat, n: nat, q: nat, r: nat)
    requires n > 0 && r < n && x == q * n + r
    ensures x / n == q && x % n == r
  {
    DivAtLeast(x, n, q);
    assert x <= q * n + (n - 1);
    assert x < (q + 1) * n;
    if x / n > q {
      MulLe(q + 1, x / n, n);
    }
  }

  /** Counting up by one bumps the quotient exactly at multiples of `n`. */
  lemma DivStep(m: nat, n: nat)
    requires n > 0
    ensures (m + 1) / n == m / n + (if (m + 1) % n == 0 then 1 else 0)
  {
    var q := m / n;
    var r := m % n;
    DivModUnique(m, n, q, r);
    if r + 1 == n {
      MulSucc(q, n);
      DivModUnique(m + 1, n, q + 1, 0);
    } else {
      DivModUnique(m + 1, n, q, r + 1);
    }
  }

  /** The square of a difference is non-negative, in expanded form. */
  lemma SquareGap(x: int, m: int)
    ensures x * x + m * m >= 2 * m * x
  {
    assert x * x + m * m - 2 * m * x == (x - m) * (x - m);
    if x >= m {
      MulLe(0, x - m, x - m);
    } else {
      MulLe(0, m - x, m - x);
      assert (x - m) * (x - m) == (m - x) * (m - x);
    }
  }

  lemma MulSucc(a: int, w: int)
    ensures (a + 1) * w == a * w + w
  {
  }

  /** Bounds `lo * n <= s <= hi * n` add up over disjoint parts. */
  lemma BoundsAdd(lo: nat, hi: nat, s1: nat, n1: nat, s2: nat, n2: nat)
    requires lo * n1 <= s1 <= hi * n1
    requires lo * n2 <= s2 <= hi * n2
    ensures lo * (n1 + n2) <= s1 + s2 <= hi * (n1 + n2)
  {
    assert lo * (n1 + n2) == lo * n1 + lo * n2;
    assert hi * (n1 + n2) == hi * n1 + hi * n2;
  }

  /** The inequality `t + m^2 n >= 2 m s` adds up over disjoint parts. */
  lemma GapAdd(m: nat, s1: nat, t1: nat, n1: nat, s2: nat, t2: nat, n2: nat)
    requires t1 + m * m * n1 >= 2 * m * s1
    requires t2 + m * m * n2 >= 2 * m * s2
    ensures (t1 + t2) + m * m * (n1 + n2) >= 2 * m * (s1 + s2)
  {
    assert m * m * (n1 + n2) == m * m * n1 + m * m * n2;
    assert 2 * m * (s1 + s2) == 2 * m * s1 + 2 * m * s2;
  }

  /** `GapAdd` with the totals named. */
  lemma GapSum(m: nat, s: nat, t: nat, n: nat, s1: nat, t1: nat, n1: nat, s2: nat, t2: nat, n2: nat)
    requires s == s1 + s2 && t == t1 + t2 && n == n1 + n2
    requires t1 + m * m * n1 >= 2 * m * s1
    requires t2 + m * m * n2 >= 2 * m * s2
    ensures t + m * m * n >= 2 * m * s
  {
    GapAdd(m, s1, t1, n1, s2, t2, n2);
  }

  /** `rows * cols`, accumulated one row at a time so that proofs by
      induction over rows stay linear. */
  function Area(rows: nat, cols: nat): nat {
    if rows == 0 then 0 else Area(rows - 1, cols) + cols
  }

  lemma {:induction false} AreaIsProduct(rows: nat, cols: nat)
    ensures Area(rows, cols) == rows * cols
  {
    if rows > 0 {
      AreaIsProduct(rows - 1, cols);
      MulSucc(rows - 1, cols);
    }
  }

  /** With `m = s / n`: if `t + m^2 n >= 2 m s` then `t / n >= m^2`. */
  lemma MeanOfSquaresBound(s: nat, t: nat, n: nat)
    requires n > 0
    requires t + (s / n) * (s / n) * n >= 2 * (s / n) * s
    ensures t / n >= (s / n) * (s / n)
  {
    var m := s / n;
    assert m * n <= s;
    MulLe(m * n, s, 2 * m);
    assert 2 * m * s >= 2 * m * (m * n);
    assert t >= m * m * n;
    DivAtLeast(t, n, m * m);
  }

  lemma ScaleSum(a: int, b: int, c: int, x: int, y: int, z: int, n: int)
    requires a == x && b == y && c == z
    ensures (a + b + c) * n == n * (x + y + z)
  {
  }

  lemma DivBetween(s: nat, n: nat, lo: nat, hi: nat)
    requires n > 0 && lo * n <= s <= hi * n
    ensures lo <= s / n <= hi
  {
    DivAtLeast(s, n, lo);
    DivAtMost(s, n, hi);
  }
}

=== FILE: image.dfy ===
/** `ImageData` of src/image.rs: two summed-area tables, one over the pixels
    and one over their per-channel squares, answering the sum, the truncated
    mean and the area-weighted variance of any inclusive rectangle. */
module Image {
  import opened Results
  import opened Rgb
  import opened Psa
  import Arith

  datatype ImageData = ImageData(height: nat, width: nat, sums: PrefixSum2D, squareSums: PrefixSum2D)

  /** Each pixel multiplied channelwise by itself (`x.comp_prod(*x)`). */
  function SquareRow(row: seq<RGB>): (sq: seq<RGB>)
    ensures |sq| == |row|
    ensures forall j | 0 <= j < |row| :: forall k :: Get(sq[j], k) == Get(row[j], k) * Get(row[j], k)
    ensures forall j | 0 <= j < |row| :: sq[j] == CompProd(row[j], row[j])
  {
    seq(|row|, j requires 0 <= j < |row| => CompProd(row[j], row[j]))
  }

  function Squares(arr: seq<seq<RGB>>): (sq: seq<seq<RGB>>)
    ensures |sq| == |arr|
    ensures forall i | 0 <= i < |arr| :: sq[i] == SquareRow(arr[i])
  {
    seq(|arr|, i requires 0 <= i < |arr| => SquareRow(arr[i]))
  }

  /** `img` holds the tables of the grid `arr`. */
  ghost predicate Represents(img: ImageData, arr: seq<seq<RGB>>) {
    && Tabulates(img.sums, arr)
    && Tabulates(img.squareSums, Squares(arr))
    && img.height == |arr|
    && img.width == |arr[0]|
  }

  ghost predicate Valid(img: ImageData) {
    exists arr :: Represents(img, arr)
  }

  /** `tl..=br` is a non-empty rectangle inside the image. */
  predicate InRect(img: ImageData, tl: (nat, nat), br: (nat, nat)) {
    tl.0 <= br.0 < img.height && tl.1 <= br.1 < img.width
  }

  /** Number of pixels of the inclusive rectangle `tl..=br`. */
  function Count(tl: (nat, nat), br: (nat, nat)): (n: nat)
    requires tl.0 <= br.0 && tl.1 <= br.1
    ensures n > 0
  {
    (br.0 - tl.0 + 1) * (br.1 - tl.1 + 1)
  }

  /** `Count` is the number of cells `Window` adds up: one row of the window's width per row. */
  lemma CountIsArea(tl: (nat, nat), br: (nat, nat))
    requires tl.0 <= br.0 && tl.1 <= br.1
    ensures Count(tl, br) == Arith.Area(br.0 + 1 - tl.0, br.1 + 1 - tl.1)
  {
    Arith.AreaIsProduct(br.0 + 1 - tl.0, br.1 + 1 - tl.1);
  }

  /** Reference sum of the grid over the inclusive rectangle `tl..=br`. */
  function Window(arr: seq<seq<RGB>>, tl: (nat, nat), br: (nat, nat)): RGB
    requires InWindow(arr, tl.0, br.0 + 1, tl.1, br.1 + 1)
  {
    RectSum(arr, tl.0, br.0 + 1, tl.1, br.1 + 1)
  }

  /** Per-channel variance term of the metric, computed from brute-force
      sums in the source's truncation order. */
  ghost function ChannelVariance(arr: seq<seq<RGB>>, tl: (nat, nat), br: (nat, nat), k: Channel): int
    requires tl.0 <= br.0 && tl.1 <= br.1
    requires InWindow(arr, tl.0, br.0 + 1, tl.1, br.1 + 1)
  {
    var n := Count(tl, br);
    var mean := Get(Window(arr, tl, br), k) / n;
    Get(Window(Squares(arr), tl, br), k) / n - mean * mean
  }

  /** `ImageData::new`: fails exactly when the table of `data` cannot be
      built; otherwise both tables describe `data`. */
  method New(data: seq<seq<RGB>>) returns (res: Result<ImageData>)
    requires RowsCoverFirst(data)
    ensures |data| == 0 ==> res == Err("array has height 0")
    ensures 0 < |data| && |data[0]| == 0 ==> res == Err("array has width 0")
    ensures res.Ok? <==> 0 < |data| && 0 < |data[0]|
    ensures res.Ok? ==> Represents(res.value, data)
    ensures res.Ok? ==> res.value.height == |data| && res.value.width == |data[0]|
  {
    var sums :- Psa.New(data);
    var squares := Squares(data);
    // `squares` has the shape of `data`, so this second build cannot fail.
    var squareSums := Psa.New(squares);
    return Ok(ImageData(sums.height, sums.width, sums, squareSums.value));
  }

  lemma ValidTables(img: ImageData)
    requires Valid(img)
    ensures Psa.Valid(img.sums) && img.sums.height == img.height && img.sums.width == img.width
    ensures Psa.Valid(img.squareSums) && img.squareSums.height == img.height && img.squareSums.width == img.width
  {
    var arr :| Represents(img, arr);
  }

  /** `sum`: the per-channel sum of the pixels of `tl..=br`. */
  function Sum(img: ImageData, tl: (nat, nat), br: (nat, nat)): (s: RGB)
    requires Valid(img) && InRect(img, tl, br)
    ensures forall arr | Represents(img, arr) :: s == Window(arr, tl, br)
  {
    ValidTables(img);
    QuerySum(img.sums, tl, br)
  }

  /** `average`: the per-channel mean of `tl..=br`, truncated. */
  function Average(img: ImageData, tl: (nat, nat), br: (nat, nat)): (a: RGB)
    requires Valid(img) && InRect(img, tl, br)
    ensures forall arr | Represents(img, arr) :: a == Div(Window(arr, tl, br), Count(tl, br))
  {
    Div(Sum(img, tl, br), Count(tl, br))
  }

  /** Every pixel of rows `[r0, r1)` and columns `[c0, c1)` has channel `k`
      between `lo` and `hi`. */
  ghost predicate ChannelWithin(arr: seq<seq<RGB>>, r0: nat, r1: nat, c0: nat, c1: nat, k: Channel, lo: nat, hi: nat)
    requires InWindow(arr, r0, r1, c0, c1)
  {
    forall i, j | r0 <= i < r1 && c0 <= j < c1 :: lo <= Get(arr[i][j], k) <= hi
  }

  lemma {:induction false} RowSumWithin(row: seq<RGB>, c0: nat, c1: nat, k: Channel, lo: nat, hi: nat)
    requires c0 <= c1 <= |row|
    requires forall j | c0 <= j < c1 :: lo <= Get(row[j], k) <= hi
    ensures lo * (c1 - c0) <= Get(RowSum(row, c0, c1), k) <= hi * (c1 - c0)
    decreases c1
  {
    if c0 < c1 {
      RowSumWithin(row, c0, c1 - 1, k, lo, hi);
      Arith.BoundsAdd(lo, hi, Get(RowSum(row, c0, c1 - 1), k), c1 - 1 - c0, Get(row[c1 - 1], k), 1);
    }
  }

  /** A window sum lies between `lo` and `hi` times the window's area. */
  lemma {:induction false} RectSumWithin(arr: seq<seq<RGB>>, r0: nat, r1: nat, c0: nat, c1: nat, k: Channel, lo: nat, hi: nat)
    requires InWindow(arr, r0, r1, c0, c1)
    requires ChannelWithin(arr, r0, r1, c0, c1, k, lo, hi)
    ensures lo * Arith.Area(r1 - r0, c1 - c0) <= Get(RectSum(arr, r0, r1, c0, c1), k) <= hi * Arith.Area(r1 - r0, c1 - c0)
    decreases r1
  {
    if r0 < r1 {
      RectSumWithin(arr, r0, r1 - 1, c0, c1, k, lo, hi);
      RowSumWithin(arr[r1 - 1], c0, c1, k, lo, hi);
      Arith.BoundsAdd(lo, hi, Get(RectSum(arr, r0, r1 - 1, c0, c1), k), Arith.Area(r1 - 1 - r0, c1 - c0),
                      Get(RowSum(arr[r1 - 1], c0, c1), k), c1 - c0);
    }
  }

  lemma {:induction false} RowSquareGap(row: seq<RGB>, c0: nat, c1: nat, k: Channel, m: nat)
    requires c0 <= c1 <= |row|
    ensures Get(RowSum(SquareRow(row), c0, c1), k) + m * m * (c1 - c0) >= 2 * m * Get(RowSum(row, c0, c1), k)
    decreases c1
  {
    if c0 < c1 {
      RowSquareGap(row, c0, c1 - 1, k, m);
      var x := Get(row[c1 - 1], k);
      assert Get(SquareRow(row)[c1 - 1], k) == x * x;
      Arith.SquareGap(x, m);
      Arith.GapAdd(m, Get(RowSum(row, c0, c1 - 1), k), Get(RowSum(SquareRow(row), c0, c1 - 1), k), c1 - 1 - c0,
                   x, x * x, 1);
    }
  }

  /** Summed over a window, `(x - m)^2 >= 0` gives `S2 + m^2 n >= 2 m S`,
      where `S` and `S2` are the sums of a channel and of its square. */
  lemma {:induction false} RectSquareGap(arr: seq<seq<RGB>>, r0: nat, r1: nat, c0: nat, c1: nat, k: Channel, m: nat)
    requires InWindow(arr, r0, r1, c0, c1)
    ensures InWindow(Squares(arr), r0, r1, c0, c1)
    ensures Get(RectSum(Squares(arr), r0, r1, c0, c1), k) + m * m * Arith.Area(r1 - r0, c1 - c0)
            >= 2 * m * Get(RectSum(arr, r0, r1, c0, c1), k)
    decreases r1
  {
    if r0 < r1 {
      RectSquareGap(arr, r0, r1 - 1, c0, c1, k, m);
      RowSquareGap(arr[r1 - 1], c0, c1, k, m);
      RectSquareGapStep(arr, r0, r1, c0, c1, k, m);
    }
  }

  /** One row more: the gap of the rows above and the gap of the new row
      add up to the gap of the taller rectangle. */
  lemma RectSquareGapStep(arr: seq<seq<RGB>>, r0: nat, r1: nat, c0: nat, c1: nat, k: Channel, m: nat)
    requires InWindow(arr, r0, r1, c0, c1) && r0 < r1
    requires Get(RectSum(Squares(arr), r0, r1 - 1, c0, c1), k) + m * m * Arith.Area(r1 - 1 - r0, c1 - c0)
             >= 2 * m * Get(RectSum(arr, r0, r1 - 1, c0, c1), k)
    requires Get(RowSum(SquareRow(arr[r1 - 1]), c0, c1), k) + m * m * (c1 - c0)
             >= 2 * m * Get(RowSum(arr[r1 - 1], c0, c1), k)
    ensures Get(RectSum(Squares(arr), r0, r1, c0, c1), k) + m * m * Arith.Area(r1 - r0, c1 - c0)
            >= 2 * m * Get(RectSum(arr, r0, r1, c0, c1), k)
  {
    var sq := Squares(arr);
    assert sq[r1 - 1] == SquareRow(arr[r1 - 1]);
    var s1 := Get(RectSum(arr, r0, r1 - 1, c0, c1), k);
    var t1 := Get(RectSum(sq, r0, r1 - 1, c0, c1), k);
    var n1 := Arith.Area(r1 - 1 - r0, c1 - c0);
    var s2 := Get(RowSum(arr[r1 - 1], c0, c1), k);
    var t2 := Get(RowSum(SquareRow(arr[r1 - 1]), c0, c1), k);
    var s := Get(RectSum(arr, r0, r1, c0, c1), k);
    var t := Get(RectSum(sq, r0, r1, c0, c1), k);
    var n := Arith.Area(r1 - r0, c1 - c0);
    assert s == s1 + s2;
    assert t == t1 + t2;
    assert n == n1 + (c1 - c0);
    Arith.GapSum(m, s, t, n, s1, t1, n1, s2, t2, c1 - c0);
  }

  /** The squared truncated mean never exceeds the truncated mean of squares:
      `floor(S2/n) >= floor(S/n)^2`, so the subtraction in `metric` cannot
      underflow. */
  lemma MeanSquareBound(arr: seq<seq<RGB>>, tl: (nat, nat), br: (nat, nat), k: Channel)
    requires tl.0 <= br.0 && tl.1 <= br.1
    requires InWindow(arr, tl.0, br.0 + 1, tl.1, br.1 + 1)
    ensures InWindow(Squares(arr), tl.0, br.0 + 1, tl.1, br.1 + 1)
    ensures ChannelVariance(arr, tl, br, k) >= 0
  {
    var n := Count(tl, br);
    var s := Get(Window(arr, tl, br), k);
    RectSquareGap(arr, tl.0, br.0 + 1, tl.1, br.1 + 1, k, s / n);
    Arith.AreaIsProduct(br.0 + 1 - tl.0, br.1 + 1 - tl.1);
    Arith.MeanOfSquaresBound(s, Get(Window(Squares(arr), tl, br), k), n);
  }

  /** Reference value of the metric of `tl..=br`, from brute-force sums. */
  ghost function MetricOf(arr: seq<seq<RGB>>, tl: (nat, nat), br: (nat, nat)): int
    requires tl.0 <= br.0 && tl.1 <= br.1
    requires InWindow(arr, tl.0, br.0 + 1, tl.1, br.1 + 1)
  {
    Count(tl, br) * (ChannelVariance(arr, tl, br, R) + ChannelVariance(arr, tl, br, G) + ChannelVariance(arr, tl, br, B))
  }

  /** One channel of `metric`: the truncated means agree with the
      brute-force quantities of `ChannelVariance`. */
  lemma ChannelTerm(arr: seq<seq<RGB>>, tl: (nat, nat), br: (nat, nat), k: Channel, mk: nat, sk: nat)
    requires tl.0 <= br.0 && tl.1 <= br.1
    requires InWindow(arr, tl.0, br.0 + 1, tl.1, br.1 + 1)
    requires InWindow(Squares(arr), tl.0, br.0 + 1, tl.1, br.1 + 1)
    requires mk == Get(Window(arr, tl, br), k) / Count(tl, br)
    requires sk == Get(Window(Squares(arr), tl, br), k) / Count(tl, br)
    ensures mk * mk <= sk
    ensures sk - mk * mk == ChannelVariance(arr, tl, br, k)
  {
    MeanSquareBound(arr, tl, br, k);
  }

  /** The channels of a variance summed and scaled by the pixel count. */
  function Weighted(variance: RGB, n: nat): nat {
    (variance.r + variance.g + variance.b) * n
  }

  /** The per-channel means inside `metric` combine into `MetricOf`. */
  lemma MetricTerms(arr: seq<seq<RGB>>, tl: (nat, nat), br: (nat, nat), mean: RGB, squareMean: RGB)
    requires tl.0 <= br.0 && tl.1 <= br.1
    requires InWindow(arr, tl.0, br.0 + 1, tl.1, br.1 + 1)
    requires InWindow(Squares(arr), tl.0, br.0 + 1, tl.1, br.1 + 1)
    requires forall k :: Get(mean, k) == Get(Window(arr, tl, br), k) / Count(tl, br)
    requires forall k :: Get(squareMean, k) == Get(Window(Squares(arr), tl, br), k) / Count(tl, br)
    ensures Le(CompProd(mean, mean), squareMean)
    ensures Weighted(Sub(squareMean, CompProd(mean, mean)), Count(tl, br)) == MetricOf(arr, tl, br)
  {
    ChannelTerm(arr, tl, br, R, mean.r, squareMean.r);
    ChannelTerm(arr, tl, br, G, mean.g, squareMean.g);
    ChannelTerm(arr, tl, br, B, mean.b, squareMean.b);
    var v := Sub(squareMean, CompProd(mean, mean));
    Arith.ScaleSum(v.r, v.g, v.b, ChannelVariance(arr, tl, br, R), ChannelVariance(arr, tl, br, G),
                   ChannelVariance(arr, tl, br, B), Count(tl, br));
  }

  /** `sum(tl, br) / n`, the first operand of `metric`: the same value as `average`. */
  function MeanColor(img: ImageData, tl: (nat, nat), br: (nat, nat)): (m: RGB)
    requires Valid(img) && InRect(img, tl, br)
    ensures forall arr, k | Represents(img, arr) :: Get(m, k) == Get(Window(arr, tl, br), k) / Count(tl, br)
  {
    Average(img, tl, br)
  }

  /** `square_sum(tl, br) / n`, the second operand of `metric`. */
  function SquareMean(img: ImageData, tl: (nat, nat), br: (nat, nat)): (m: RGB)
    requires Valid(img) && InRect(img, tl, br)
    ensures forall arr | Represents(img, arr) :: InWindow(Squares(arr), tl.0, br.0 + 1, tl.1, br.1 + 1)
    ensures forall arr, k | Represents(img, arr) :: Get(m, k) == Get(Window(Squares(arr), tl, br), k) / Count(tl, br)
  {
    ValidTables(img);
    var m := Div(QuerySum(img.squareSums, tl, br), Count(tl, br));
    assert forall arr | Represents(img, arr) :: InWindow(Squares(arr), tl.0, br.0 + 1, tl.1, br.1 + 1)
                                                && forall k :: Get(m, k) == Get(Window(Squares(arr), tl, br), k) / Count(tl, br) by {
      forall arr | Represents(img, arr)
        ensures InWindow(Squares(arr), tl.0, br.0 + 1, tl.1, br.1 + 1)
        ensures forall k :: Get(m, k) == Get(Window(Squares(arr), tl, br), k) / Count(tl, br)
      {
        Means(img, arr, tl, br);
      }
    }
    m
  }

  lemma MetricAgreesOn(img: ImageData, arr: seq<seq<RGB>>, tl: (nat, nat), br: (nat, nat))
    requires Represents(img, arr) && InRect(img, tl, br)
    ensures Le(CompProd(MeanColor(img, tl, br), MeanColor(img, tl, br)), SquareMean(img, tl, br))
    ensures Weighted(Sub(SquareMean(img, tl, br), CompProd(MeanColor(img, tl, br), MeanColor(img, tl, br))), Count(tl, br))
            == MetricOf(arr, tl, br)
  {
    ValidTables(img);
    Means(img, arr, tl, br);
    MetricTerms(arr, tl, br, MeanColor(img, tl, br), SquareMean(img, tl, br));
  }

  lemma MetricAgrees(img: ImageData, tl: (nat, nat), br: (nat, nat))
    requires Valid(img) && InRect(img, tl, br)
    ensures Le(CompProd(MeanColor(img, tl, br), MeanColor(img, tl, br)), SquareMean(img, tl, br))
    ensures forall arr | Represents(img, arr) ::
              Weighted(Sub(SquareMean(img, tl, br), CompProd(MeanColor(img, tl, br), MeanColor(img, tl, br))), Count(tl, br))
              == MetricOf(arr, tl, br)
  {
    var arr0 :| Represents(img, arr0);
    MetricAgreesOn(img, arr0, tl, br);
    forall arr | Represents(img, arr)
      ensures Weighted(Sub(SquareMean(img, tl, br), CompProd(MeanColor(img, tl, br), MeanColor(img, tl, br))), Count(tl, br))
              == MetricOf(arr, tl, br)
    {
      MetricAgreesOn(img, arr, tl, br);
    }
  }

  /** `metric`: the sum over channels of `floor(S2/n) - floor(S/n)^2`, times
      the pixel count `n`.  The componentwise subtraction never underflows. */
  function Metric(img: ImageData, tl: (nat, nat), br: (nat, nat)): (m: nat)
    requires Valid(img) && InRect(img, tl, br)
    ensures forall arr | Represents(img, arr) :: m == MetricOf(arr, tl, br)
  {
    MetricAgrees(img, tl, br);
    var mean := MeanColor(img, tl, br);
    var variance := Sub(SquareMean(img, tl, br), CompProd(mean, mean));
    Weighted(variance, Count(tl, br))
  }

  /** The two truncated means of `metric`, channel by channel. */
  lemma Means(img: ImageData, arr: seq<seq<RGB>>, tl: (nat, nat), br: (nat, nat))
    requires Represents(img, arr) && InRect(img, tl, br)
    requires Psa.Valid(img.squareSums)
    ensures InWindow(Squares(arr), tl.0, br.0 + 1, tl.1, br.1 + 1)
    ensures forall k :: Get(Div(Sum(img, tl, br), Count(tl, br)), k) == Get(Window(arr, tl, br), k) / Count(tl, br)
    ensures forall k ::
              Get(Div(QuerySum(img.squareSums, tl, br), Count(tl, br)), k)
              == Get(Window(Squares(arr), tl, br), k) / Count(tl, br)
  {
    ValidTables(img);
  }

  /** The truncated mean of a channel lies within any bounds that hold for
      every pixel of the rectangle. */
  lemma AverageWithin(img: ImageData, arr: seq<seq<RGB>>, tl: (nat, nat), br: (nat, nat), k: Channel, lo: nat, hi: nat)
    requires Represents(img, arr) && InRect(img, tl, br)
    requires ChannelWithin(arr, tl.0, br.0 + 1, tl.1, br.1 + 1, k, lo, hi)
    ensures lo <= Get(Average(img, tl, br), k) <= hi
  {
    var n := Count(tl, br);
    var s := Get(Window(arr, tl, br), k);
    assert lo * n <= s <= hi * n by {
      RectSumWithin(arr, tl.0, br.0 + 1, tl.1, br.1 + 1, k, lo, hi);
      Arith.AreaIsProduct(br.0 + 1 - tl.0, br.1 + 1 - tl.1);
    }
    AverageIs(img, arr, tl, br, k);
    Arith.DivBetween(s, n, lo, hi);
  }

  lemma AverageIs(img: ImageData, arr: seq<seq<RGB>>, tl: (nat, nat), br: (nat, nat), k: Channel)
    requires Represents(img, arr) && InRect(img, tl, br)
    ensures Get(Average(img, tl, br), k) == Get(Window(arr, tl, br), k) / Count(tl, br)
  {
  }

  /** Over an 8-bit image every average is an 8-bit colour, so the `as u8`
      casts of rendering lose nothing. */
  lemma AverageIsByte(img: ImageData, arr: seq<seq<RGB>>, tl: (nat, nat), br: (nat, nat))
    requires Represents(img, arr) && InRect(img, tl, br)
    requires forall i, j | tl.0 <= i <= br.0 && tl.1 <= j <= br.1 :: IsByteColor(arr[i][j])
    ensures IsByteColor(Average(img, tl, br))
    ensures Widen(Truncate(Average(img, tl, br))) == Average(img, tl, br)
  {
    var a := Average(img, tl, br);
    AverageChannelByte(img, arr, tl, br, R);
    AverageChannelByte(img, arr, tl, br, G);
    AverageChannelByte(img, arr, tl, br, B);
    WidenTruncate(Truncate(a), a);
  }

  lemma AverageChannelByte(img: ImageData, arr: seq<seq<RGB>>, tl: (nat, nat), br: (nat, nat), k: Channel)
    requires Represents(img, arr) && InRect(img, tl, br)
    requires forall i, j | tl.0 <= i <= br.0 && tl.1 <= j <= br.1 :: IsByteColor(arr[i][j])
    ensures Get(Average(img, tl, br), k) <= 255
  {
    ByteWithin(arr, tl, br, k);
    AverageWithin(img, arr, tl, br, k, 0, 255);
  }

  lemma ByteWithin(arr: seq<seq<RGB>>, tl: (nat, nat), br: (nat, nat), k: Channel)
    requires InWindow(arr, tl.0, br.0 + 1, tl.1, br.1 + 1)
    requires forall i, j | tl.0 <= i <= br.0 && tl.1 <= j <= br.1 :: IsByteColor(arr[i][j])
    ensures ChannelWithin(arr, tl.0, br.0 + 1, tl.1, br.1 + 1, k, 0, 255)
  {
    forall i, j | tl.0 <= i <= br.0 && tl.1 <= j <= br.1
      ensures Get(arr[i][j], k) <= 255
    {
      assert IsByteColor(arr[i][j]);
    }
  }

  /** Every pixel of the rectangle `tl..=br` is `c`. */
  ghost predicate Uniform(arr: seq<seq<RGB>>, tl: (nat, nat), br: (nat, nat), c: RGB)
    requires InWindow(arr, tl.0, br.0 + 1, tl.1, br.1 + 1)
  {
    forall i, j | tl.0 <= i <= br.0 && tl.1 <= j <= br.1 :: arr[i][j] == c
  }

  lemma UniformMean(arr: seq<seq<RGB>>, tl: (nat, nat), br: (nat, nat), c: RGB, k: Channel)
    requires tl.0 <= br.0 && tl.1 <= br.1
    requires InWindow(arr, tl.0, br.0 + 1, tl.1, br.1 + 1)
    requires Uniform(arr, tl, br, c)
    ensures Get(Window(arr, tl, br), k) / Count(tl, br) == Get(c, k)
  {
    var n := Count(tl, br);
    var s := Get(Window(arr, tl, br), k);
    assert s == Get(c, k) * n by {
      RectSumWithin(arr, tl.0, br.0 + 1, tl.1, br.1 + 1, k, Get(c, k), Get(c, k));
      Arith.AreaIsProduct(br.0 + 1 - tl.0, br.1 + 1 - tl.1);
    }
    Arith.DivModUnique(s, n, Get(c, k), 0);
  }

  lemma UniformVariance(arr: seq<seq<RGB>>, tl: (nat, nat), br: (nat, nat), c: RGB, k: Channel)
    requires tl.0 <= br.0 && tl.1 <= br.1
    requires InWindow(arr, tl.0, br.0 + 1, tl.1, br.1 + 1)
    requires Uniform(arr, tl, br, c)
    ensures ChannelVariance(arr, tl, br, k) == 0
  {
    var sq := Squares(arr);
    assert Uniform(sq, tl, br, CompProd(c, c)) by {
      forall i, j | tl.0 <= i <= br.0 && tl.1 <= j <= br.1
        ensures sq[i][j] == CompProd(c, c)
      {
        assert sq[i] == SquareRow(arr[i]);
      }
    }
    UniformMean(arr, tl, br, c, k);
    UniformMean(sq, tl, br, CompProd(c, c), k);
  }

  /** A rectangle of one colour averages to that colour. */
  lemma UniformAverage(img: ImageData, arr: seq<seq<RGB>>, tl: (nat, nat), br: (nat, nat), c: RGB)
    requires Represents(img, arr) && InRect(img, tl, br)
    requires Uniform(arr, tl, br, c)
    ensures Average(img, tl, br) == c
  {
    UniformMean(arr, tl, br, c, R);
    UniformMean(arr, tl, br, c, G);
    UniformMean(arr, tl, br, c, B);
    AverageIs(img, arr, tl, br, R);
    AverageIs(img, arr, tl, br, G);
    AverageIs(img, arr, tl, br, B);
  }

  /** A rectangle of one colour has metric 0, the least a rectangle can have. */
  lemma UniformMetric(img: ImageData, arr: seq<seq<RGB>>, tl: (nat, nat), br: (nat, nat), c: RGB)
    requires Represents(img, arr) && InRect(img, tl, br)
    requires Uniform(arr, tl, br, c)
    ensures Metric(img, tl, br) == 0
  {
    UniformMetricOf(arr, tl, br, c);
  }

  /** A single pixel has metric 0. */
  lemma SinglePixelMetric(img: ImageData, arr: seq<seq<RGB>>, p: (nat, nat))
    requires Represents(img, arr) && p.0 < img.height && p.1 < img.width
    ensures Metric(img, p, p) == 0
  {
    assert |arr[0]| <= |arr[p.0]|;
    UniformMetric(img, arr, p, p, arr[p.0][p.1]);
  }

  lemma UniformMetricOf(arr: seq<seq<RGB>>, tl: (nat, nat), br: (nat, nat), c: RGB)
    requires tl.0 <= br.0 && tl.1 <= br.1
    requires InWindow(arr, tl.0, br.0 + 1, tl.1, br.1 + 1)
    requires Uniform(arr, tl, br, c)
    ensures MetricOf(arr, tl, br) == 0
  {
    UniformVariance(arr, tl, br, c, R);
    UniformVariance(arr, tl, br, c, G);
    UniformVariance(arr, tl, br, c, B);
  }
}

=== FILE: nodes.dfy ===
/** `Node` of src/tree.rs: an inclusive pixel rectangle of the quadtree,
    and the cut of a rectangle into four quadrants at its floored midpoints.
    Points are `(row, column)`, as the source's `(y, x)` pairs. */
module Nodes {
  import opened Results

  type Point = (nat, nat)

  /** Arena indices of the four quadrants of a split node. */
  datatype NodeChildren = NodeChildren(nw: nat, ne: nat, sw: nat, se: nat)

  datatype Node = Node(topLeft: Point, bottomRight: Point, children: Option<NodeChildren>)

  /** `Node::leaf`: a rectangle without children. */
  function Leaf(tl: Point, br: Point): (n: Node)
    ensures n.children.None? && n.topLeft == tl && n.bottomRight == br
  {
    Node(tl, br, None)
  }

  /** The rectangle is non-empty: the `u64` subtractions of `height` and
      `width` do not underflow. */
  predicate Proper(n: Node) {
    n.topLeft.0 <= n.bottomRight.0 && n.topLeft.1 <= n.bottomRight.1
  }

  /** `height`: the row distance between the corners, one less than the
      number of rows. */
  function Height(n: Node): (h: nat)
    requires Proper(n)
    ensures n.topLeft.0 + h == n.bottomRight.0
  {
    n.bottomRight.0 - n.topLeft.0
  }

  /** `width`: the column distance between the corners. */
  function Width(n: Node): (w: nat)
    requires Proper(n)
    ensures n.topLeft.1 + w == n.bottomRight.1
  {
    n.bottomRight.1 - n.topLeft.1
  }

  /** `can_split`: both distances exceed 1, that is the rectangle has at
      least three rows and three columns. */
  predicate CanSplit(n: Node)
    requires Proper(n)
    ensures CanSplit(n) <==> n.bottomRight.0 + 1 - n.topLeft.0 >= 3 && n.bottomRight.1 + 1 - n.topLeft.1 >= 3
  {
    Width(n) > 1 && Height(n) > 1
  }

  /** Pixel `p` lies in the rectangle of `n`. */
  predicate Contains(n: Node, p: Point) {
    n.topLeft.0 <= p.0 <= n.bottomRight.0 && n.topLeft.1 <= p.1 <= n.bottomRight.1
  }

  ghost predicate Disjoint(a: Node, b: Node) {
    forall p :: !(Contains(a, p) && Contains(b, p))
  }

  /** The four rectangles partition the pixels of `n`: their union is `n`
      and no two of them overlap. */
  ghost predicate Tiles(n: Node, a: Node, b: Node, c: Node, d: Node) {
    && (forall p :: Contains(n, p) <==> Contains(a, p) || Contains(b, p) || Contains(c, p) || Contains(d, p))
    && Disjoint(a, b) && Disjoint(a, c) && Disjoint(a, d)
    && Disjoint(b, c) && Disjoint(b, d) && Disjoint(c, d)
  }

  /** `split`: `None` exactly when `can_split` fails; otherwise four proper
      leaves, in nw/ne/sw/se order, that tile the rectangle. */
  function Split(n: Node): (r: Option<(Node, Node, Node, Node)>)
    requires Proper(n)
    ensures r.None? <==> !CanSplit(n)
    ensures r.Some? ==>
              && r.value.0.children.None? && r.value.1.children.None?
              && r.value.2.children.None? && r.value.3.children.None?
              && Proper(r.value.0) && Proper(r.value.1) && Proper(r.value.2) && Proper(r.value.3)
              && Tiles(n, r.value.0, r.value.1, r.value.2, r.value.3)
  {
    if !CanSplit(n) then None
    else
      var tl := n.topLeft;
      var br := n.bottomRight;
      var splitH := (tl.0 + br.0) / 2;
      var splitW := (tl.1 + br.1) / 2;
      var nw := Leaf(tl, (splitH, splitW));
      var ne := Leaf((tl.0, splitW + 1), (splitH, br.1));
      var sw := Leaf((splitH + 1, tl.1), (br.0, splitW));
      var se := Leaf((splitH + 1, splitW + 1), br);
      Some((nw, ne, sw, se))
  }

  /** The quadrants of `split`: the northern ones take the upper `ceil(rows/2)`
      rows and the western ones the left `ceil(cols/2)` columns, so every
      quadrant has fewer rows and fewer columns than its parent. */
  lemma SplitHalves(n: Node)
    requires Proper(n) && CanSplit(n)
    ensures var (nw, ne, sw, se) := Split(n).value;
            && Height(nw) + 1 == (Height(n) + 2) / 2 && Height(ne) == Height(nw)
            && Height(sw) + 1 == (Height(n) + 1) / 2 && Height(se) == Height(sw)
            && Width(nw) + 1 == (Width(n) + 2) / 2 && Width(sw) == Width(nw)
            && Width(ne) + 1 == (Width(n) + 1) / 2 && Width(se) == Width(ne)
            && nw.topLeft == n.topLeft && se.bottomRight == n.bottomRight
            && Height(nw) < Height(n) && Height(sw) < Height(n)
            && Width(nw) < Width(n) && Width(ne) < Width(n)
  {
  }
}

=== FILE: psa.dfy ===
/** `PrefixSum2D` of src/psa.rs: a summed-area table over a grid of colours,
    answering inclusive-rectangle sums from four corner lookups. */
module Psa {
  import opened Results
  import opened Rgb

  /** `data` has `height + 1` rows of `width + 1` entries; row 0 and column 0
      are padding. */
  datatype PrefixSum2D = PrefixSum2D(height: nat, width: nat, data: seq<seq<RGB>>)

  /** The build loop reads `arr[i][j]` for every `j` below the first row's
      length, so no row may be shorter than the first.  Longer rows are
      allowed; their extra entries are never read. */
  predicate RowsCoverFirst(arr: seq<seq<RGB>>) {
    forall i | 0 <= i < |arr| :: |arr[0]| <= |arr[i]|
  }

  /** Rows `[r0, r1)` and columns `[c0, c1)` all exist in `arr`. */
  predicate InWindow(arr: seq<seq<RGB>>, r0: nat, r1: nat, c0: nat, c1: nat) {
    r0 <= r1 <= |arr| && c0 <= c1 && forall i | r0 <= i < r1 :: c1 <= |arr[i]|
  }

  /** Reference sum of `row[c0..c1]`. */
  function RowSum(row: seq<RGB>, c0: nat, c1: nat): RGB
    requires c0 <= c1 <= |row|
    decreases c1
  {
    if c0 == c1 then Zero() else Add(RowSum(row, c0, c1 - 1), row[c1 - 1])
  }

  /** Reference (brute-force) sum over rows `[r0, r1)` and columns `[c0, c1)`. */
  function RectSum(arr: seq<seq<RGB>>, r0: nat, r1: nat, c0: nat, c1: nat): RGB
    requires InWindow(arr, r0, r1, c0, c1)
    decreases r1
  {
    if r0 == r1 then Zero() else Add(RectSum(arr, r0, r1 - 1, c0, c1), RowSum(arr[r1 - 1], c0, c1))
  }

  predicate Shaped(t: PrefixSum2D) {
    |t.data| == t.height + 1 && forall i | 0 <= i < |t.data| :: |t.data[i]| == t.width + 1
  }

  /** `t` is the table `new` builds from `arr`: entry `[i][j]` is the sum of
      `arr` over rows `[0, i)` and columns `[0, j)`. */
  ghost predicate Tabulates(t: PrefixSum2D, arr: seq<seq<RGB>>) {
    && 0 < |arr|
    && RowsCoverFirst(arr)
    && t.height == |arr|
    && t.width == |arr[0]|
    && 0 < t.width
    && Shaped(t)
    && forall i, j | 0 <= i <= t.height && 0 <= j <= t.width :: t.data[i][j] == RectSum(arr, 0, i, 0, j)
  }

  /** A table that some grid produced. */
  ghost predicate Valid(t: PrefixSum2D) {
    Shaped(t) && exists arr :: Tabulates(t, arr)
  }

  lemma {:induction false} RowSumSplit(row: seq<RGB>, a: nat, b: nat, c: nat)
    requires a <= b <= c <= |row|
    ensures RowSum(row, a, c) == Add(RowSum(row, a, b), RowSum(row, b, c))
    decreases c
  {
    if b < c {
      RowSumSplit(row, a, b, c - 1);
    }
  }

  lemma {:induction false} RectSumRowSplit(arr: seq<seq<RGB>>, r0: nat, r1: nat, r2: nat, c0: nat, c1: nat)
    requires r0 <= r1 && InWindow(arr, r0, r2, c0, c1) && r1 <= r2
    ensures RectSum(arr, r0, r2, c0, c1) == Add(RectSum(arr, r0, r1, c0, c1), RectSum(arr, r1, r2, c0, c1))
    decreases r2
  {
    if r1 < r2 {
      RectSumRowSplit(arr, r0, r1, r2 - 1, c0, c1);
      AddAssoc(RectSum(arr, r0, r1, c0, c1), RectSum(arr, r1, r2 - 1, c0, c1), RowSum(arr[r2 - 1], c0, c1));
    }
  }

  lemma {:induction false} RectSumColSplit(arr: seq<seq<RGB>>, r0: nat, r1: nat, c0: nat, c1: nat, c2: nat)
    requires c0 <= c1 && InWindow(arr, r0, r1, c0, c2) && c1 <= c2
    ensures RectSum(arr, r0, r1, c0, c2) == Add(RectSum(arr, r0, r1, c0, c1), RectSum(arr, r0, r1, c1, c2))
    decreases r1
  {
    if r0 < r1 {
      RectSumColSplit(arr, r0, r1 - 1, c0, c1, c2);
      RowSumSplit(arr[r1 - 1], c0, c1, c2);
      AddInterchange(RectSum(arr, r0, r1 - 1, c0, c1), RectSum(arr, r0, r1 - 1, c1, c2),
                     RowSum(arr[r1 - 1], c0, c1), RowSum(arr[r1 - 1], c1, c2));
    }
  }

  lemma {:induction false} RectSumNoCols(arr: seq<seq<RGB>>, r0: nat, r1: nat, c: nat)
    requires InWindow(arr, r0, r1, c, c)
    ensures RectSum(arr, r0, r1, c, c) == Zero()
    decreases r1
  {
    if r0 < r1 {
      RectSumNoCols(arr, r0, r1 - 1, c);
    }
  }

  /** One step of the build loop: the inclusion-exclusion recurrence, and the
      fact that its single subtraction cannot underflow. */
  lemma BuildStep(arr: seq<seq<RGB>>, i: nat, j: nat)
    requires i < |arr| && RowsCoverFirst(arr) && j < |arr[0]|
    ensures Le(RectSum(arr, 0, i, 0, j),
               Add(Add(arr[i][j], RectSum(arr, 0, i, 0, j + 1)), RectSum(arr, 0, i + 1, 0, j)))
    ensures Sub(Add(Add(arr[i][j], RectSum(arr, 0, i, 0, j + 1)), RectSum(arr, 0, i + 1, 0, j)),
                RectSum(arr, 0, i, 0, j))
            == RectSum(arr, 0, i + 1, 0, j + 1)
  {
    var v, rs := arr[i][j], RowSum(arr[i], 0, j);
    assert RowSum(arr[i], 0, j + 1) == Add(rs, v);
    assert RectSum(arr, 0, i + 1, 0, j + 1) == Add(RectSum(arr, 0, i, 0, j + 1), Add(rs, v));
    assert RectSum(arr, 0, i + 1, 0, j) == Add(RectSum(arr, 0, i, 0, j), rs);
    BuildAlgebra(v, RectSum(arr, 0, i, 0, j), RectSum(arr, 0, i, 0, j + 1), RectSum(arr, 0, i + 1, 0, j), rs,
                 RectSum(arr, 0, i + 1, 0, j + 1));
  }

  /** The colour algebra of one table entry: with `left = p + rs` and
      `target = q + rs + v`, the subtraction stays non-negative and yields
      `target`. */
  lemma BuildAlgebra(v: RGB, p: RGB, q: RGB, left: RGB, rs: RGB, target: RGB)
    requires left == Add(p, rs) && target == Add(q, Add(rs, v))
    ensures Le(p, Add(Add(v, q), left))
    ensures Sub(Add(Add(v, q), left), p) == target
  {
  }

  /** Row `i + 1` of the table, computed from row `i` (`above`) by the inner
      loop of `new`. */
  method BuildRow(arr: seq<seq<RGB>>, i: nat, above: seq<RGB>) returns (row: seq<RGB>)
    requires i < |arr| && RowsCoverFirst(arr)
    requires |above| == |arr[0]| + 1
    requires forall b | 0 <= b < |above| :: above[b] == RectSum(arr, 0, i, 0, b)
    ensures |row| == |arr[0]| + 1
    ensures forall b | 0 <= b < |row| :: row[b] == RectSum(arr, 0, i + 1, 0, b)
  {
    var width := |arr[0]|;
    RectSumNoCols(arr, 0, i + 1, 0);
    row := [Zero()];
    var j := 0;
    while j < width
      invariant 0 <= j <= width
      invariant |row| == j + 1
      invariant forall b | 0 <= b < |row| :: row[b] == RectSum(arr, 0, i + 1, 0, b)
    {
      BuildStep(arr, i, j);
      row := row + [Sub(Add(Add(arr[i][j], above[j + 1]), row[j]), above[j])];
      j := j + 1;
    }
  }

  /** `PrefixSum2D::new`.  Fails on an empty outer vector and on an empty
      first row; otherwise returns the table of `arr`, with zero padding in
      row 0 and column 0. */
  method New(arr: seq<seq<RGB>>) returns (res: Result<PrefixSum2D>)
    requires RowsCoverFirst(arr)
    ensures |arr| == 0 ==> res == Err("array has height 0")
    ensures 0 < |arr| && |arr[0]| == 0 ==> res == Err("array has width 0")
    ensures res.Ok? <==> 0 < |arr| && 0 < |arr[0]|
    ensures res.Ok? ==> Tabulates(res.value, arr)
    ensures res.Ok? ==> res.value.height == |arr| && res.value.width == |arr[0]|
    ensures res.Ok? ==> forall j | 0 <= j <= res.value.width :: res.value.data[0][j] == Zero()
    ensures res.Ok? ==> forall i | 0 <= i <= res.value.height :: res.value.data[i][0] == Zero()
  {
    if |arr| == 0 {
      return Err("array has height 0");
    }
    var height := |arr|;
    var width := |arr[0]|;
    if width == 0 {
      return Err("array has width 0");
    }
    var data := BuildTable(arr);
    var t := PrefixSum2D(height, width, data);
    Padding(t, arr);
    return Ok(t);
  }

  /** The loops of `new`: row 0 of zeros, then one row per row of `arr`. */
  method BuildTable(arr: seq<seq<RGB>>) returns (data: seq<seq<RGB>>)
    requires 0 < |arr| && RowsCoverFirst(arr)
    ensures |data| == |arr| + 1
    ensures forall a | 0 <= a < |data| :: |data[a]| == |arr[0]| + 1
    ensures forall a, b | 0 <= a < |data| && 0 <= b <= |arr[0]| :: data[a][b] == RectSum(arr, 0, a, 0, b)
  {
    var height := |arr|;
    var width := |arr[0]|;
    data := [seq(width + 1, _ => Zero())];
    var i := 0;
    while i < height
      invariant 0 <= i <= height
      invariant |data| == i + 1
      invariant forall a | 0 <= a < |data| :: |data[a]| == width + 1
      invariant forall a, b | 0 <= a < |data| && 0 <= b <= width :: data[a][b] == RectSum(arr, 0, a, 0, b)
    {
      var row := BuildRow(arr, i, data[i]);
      data := data + [row];
      i := i + 1;
    }
  }

  /** Row 0 and column 0 of a table are zero. */
  lemma Padding(t: PrefixSum2D, arr: seq<seq<RGB>>)
    requires Tabulates(t, arr)
    ensures forall j | 0 <= j <= t.width :: t.data[0][j] == Zero()
    ensures forall i | 0 <= i <= t.height :: t.data[i][0] == Zero()
  {
    forall i | 0 <= i <= t.height
      ensures t.data[i][0] == Zero()
    {
      RectSumNoCols(arr, 0, i, 0);
    }
  }

  /** The four corner lookups of `query_sum` give the brute-force sum, and
      neither subtraction of `a + b - c - d` underflows. */
  lemma QueryIdentity(t: PrefixSum2D, arr: seq<seq<RGB>>, tl: (nat, nat), br: (nat, nat))
    requires Tabulates(t, arr)
    requires tl.0 <= br.0 < t.height && tl.1 <= br.1 < t.width
    ensures Le(t.data[br.0 + 1][tl.1], Add(t.data[br.0 + 1][br.1 + 1], t.data[tl.0][tl.1]))
    ensures Le(t.data[tl.0][br.1 + 1],
               Sub(Add(t.data[br.0 + 1][br.1 + 1], t.data[tl.0][tl.1]), t.data[br.0 + 1][tl.1]))
    ensures Sub(Sub(Add(t.data[br.0 + 1][br.1 + 1], t.data[tl.0][tl.1]), t.data[br.0 + 1][tl.1]),
                t.data[tl.0][br.1 + 1])
            == RectSum(arr, tl.0, br.0 + 1, tl.1, br.1 + 1)
  {
    var r, c, rr, cc := tl.0, tl.1, br.0 + 1, br.1 + 1;
    var a, b, left, top := t.data[rr][cc], t.data[r][c], t.data[rr][c], t.data[r][cc];
    var x := RectSum(arr, r, rr, c, cc);
    var y := RectSum(arr, r, rr, 0, c);
    assert a == Add(top, Add(y, x)) by {
      assert a == RectSum(arr, 0, rr, 0, cc) && top == RectSum(arr, 0, r, 0, cc);
      RectSumRowSplit(arr, 0, r, rr, 0, cc);
      RectSumColSplit(arr, r, rr, 0, c, cc);
    }
    assert left == Add(b, y) by {
      assert left == RectSum(arr, 0, rr, 0, c) && b == RectSum(arr, 0, r, 0, c);
      RectSumRowSplit(arr, 0, r, rr, 0, c);
    }
    InclusionExclusion(a, b, left, top, x, y);
  }

  /** The colour algebra of the query: with `a = top + y + x` and
      `left = b + y`, the subtractions stay non-negative and leave `x`. */
  lemma InclusionExclusion(a: RGB, b: RGB, left: RGB, top: RGB, x: RGB, y: RGB)
    requires a == Add(top, Add(y, x)) && left == Add(b, y)
    ensures Le(left, Add(a, b)) && Le(top, Sub(Add(a, b), left))
    ensures Sub(Sub(Add(a, b), left), top) == x
  {
  }

  /** `query_sum`: the sum over the inclusive rectangle `tl..=br`. */
  function QuerySum(t: PrefixSum2D, tl: (nat, nat), br: (nat, nat)): (s: RGB)
    requires Valid(t)
    requires tl.0 <= br.0 < t.height && tl.1 <= br.1 < t.width
    ensures forall arr | Tabulates(t, arr) :: s == RectSum(arr, tl.0, br.0 + 1, tl.1, br.1 + 1)
  {
    var a := t.data[br.0 + 1][br.1 + 1];
    var b := t.data[tl.0][tl.1];
    var c := t.data[br.0 + 1][tl.1];
    var d := t.data[tl.0][br.1 + 1];
    assert Le(c, Add(a, b)) && Le(d, Sub(Add(a, b), c)) by {
      var arr :| Tabulates(t, arr);
      QueryIdentity(t, arr, tl, br);
    }
    var s := Sub(Sub(Add(a, b), c), d);
    assert forall arr | Tabulates(t, arr) :: s == RectSum(arr, tl.0, br.0 + 1, tl.1, br.1 + 1) by {
      forall arr | Tabulates(t, arr)
        ensures s == RectSum(arr, tl.0, br.0 + 1, tl.1, br.1 + 1)
      {
        QueryIdentity(t, arr, tl, br);
      }
    }
    s
  }
}

=== FILE: render.dfy ===
/** `render_rgb` and `render_rgba` of src/tree.rs: a fresh canvas the size
    of the image, on which every leaf of the quadtree is painted with the
    average colour of the pixels under it, cut to 8 bits per channel. */
module Render {
  import opened Results
  import opened Rgb
  import opened Nodes
  import Image
  import QuadTree

  /** Rows of pixels, indexed `canvas[y][x]`. */
  type Canvas<P> = seq<seq<P>>

  /** A pixel of `RgbaImage`. */
  datatype RGBA8 = RGBA8(r: Byte, g: Byte, b: Byte, a: Byte)

  /** `MAX_ALPHA`: the opacity of every pixel `render_rgba` paints. */
  const MaxAlpha: Byte := 100

  /** The canvas has `dims.0` rows of `dims.1` pixels. */
  predicate HasDims<P>(c: Canvas<P>, dims: (nat, nat)) {
    |c| == dims.0 && forall y | 0 <= y < |c| :: |c[y]| == dims.1
  }

  /** `RgbImage::new` / `RgbaImage::new`: every pixel is `blank`. */
  function Blank<P>(dims: (nat, nat), blank: P): (c: Canvas<P>)
    ensures HasDims(c, dims)
    ensures forall y, x | 0 <= y < dims.0 && 0 <= x < dims.1 :: c[y][x] == blank
  {
    seq(dims.0, _ => seq(dims.1, _ => blank))
  }

  /** The two nested `put_pixel` loops for one leaf, columns outside and
      rows inside: the pixels of `n` become `px`, all others are kept. */
  method PaintRect<P>(c: Canvas<P>, dims: (nat, nat), n: Node, px: P) returns (out: Canvas<P>)
    requires HasDims(c, dims) && QuadTree.InImage(n, dims)
    ensures HasDims(out, dims)
    ensures forall y, x | 0 <= y < dims.0 && 0 <= x < dims.1 ::
              out[y][x] == if Contains(n, (y, x)) then px else c[y][x]
  {
    out := c;
    var x := n.topLeft.1;
    while x <= n.bottomRight.1
      invariant n.topLeft.1 <= x <= n.bottomRight.1 + 1
      invariant HasDims(out, dims)
      invariant forall y', x' | 0 <= y' < dims.0 && 0 <= x' < dims.1 ::
                  out[y'][x'] == if Contains(n, (y', x')) && x' < x then px else c[y'][x']
    {
      var y := n.topLeft.0;
      while y <= n.bottomRight.0
        invariant n.topLeft.0 <= y <= n.bottomRight.0 + 1
        invariant HasDims(out, dims)
        invariant forall y', x' | 0 <= y' < dims.0 && 0 <= x' < dims.1 ::
                    out[y'][x'] == if Contains(n, (y', x')) && (x' < x || (x' == x && y' < y)) then px else c[y'][x']
      {
        out := out[y := out[y][x := px]];
        y := y + 1;
      }
      x := x + 1;
    }
  }

  /** The last leaf before arena index `i` whose rectangle holds `p`: the
      one whose colour a walk in arena order leaves on `p`. */
  ghost function LastLeaf(nodes: seq<Node>, i: nat, p: Point): (r: Option<nat>)
    requires i <= |nodes|
    ensures r.Some? ==> r.value < i && QuadTree.IsLeaf(nodes, r.value) && Contains(nodes[r.value], p)
  {
    if i == 0 then None
    else if QuadTree.IsLeaf(nodes, i - 1) && Contains(nodes[i - 1], p) then Some(i - 1)
    else LastLeaf(nodes, i - 1, p)
  }

  /** The colour of `p` after painting the leaves before index `i`. */
  ghost function Painted<P>(nodes: seq<Node>, i: nat, colors: seq<P>, blank: P, p: Point): P
    requires i <= |nodes| == |colors|
  {
    match LastLeaf(nodes, i, p)
    case None => blank
    case Some(l) => colors[l]
  }

  /** Canvas `c` shows every pixel as the walk leaves it after the leaves
      before index `i`. */
  ghost predicate Shows<P>(c: Canvas<P>, nodes: seq<Node>, i: nat, colors: seq<P>, blank: P, dims: (nat, nat))
    requires i <= |nodes| == |colors| && HasDims(c, dims)
  {
    forall y, x | 0 <= y < dims.0 && 0 <= x < dims.1 :: c[y][x] == Painted(nodes, i, colors, blank, (y, x))
  }

  /** Walking past node `i` repaints `p` exactly when `i` is a leaf that
      holds it. */
  lemma PaintStep<P>(nodes: seq<Node>, i: nat, colors: seq<P>, blank: P, p: Point)
    requires i < |nodes| == |colors|
    ensures Painted(nodes, i + 1, colors, blank, p)
            == if nodes[i].children.None? && Contains(nodes[i], p) then colors[i] else Painted(nodes, i, colors, blank, p)
  {
  }

  /** One turn of the leaf loop: node `i` is painted if it is a leaf. */
  method PaintNode<P>(c: Canvas<P>, nodes: seq<Node>, dims: (nat, nat), colors: seq<P>, blank: P, i: nat)
    returns (out: Canvas<P>)
    requires QuadTree.AllInImage(nodes, dims) && |colors| == |nodes| && i < |nodes|
    requires HasDims(c, dims) && Shows(c, nodes, i, colors, blank, dims)
    ensures HasDims(out, dims) && Shows(out, nodes, i + 1, colors, blank, dims)
  {
    out := c;
    if nodes[i].children.None? {
      out := PaintRect(c, dims, nodes[i], colors[i]);
    }
    forall y, x | 0 <= y < dims.0 && 0 <= x < dims.1
      ensures out[y][x] == Painted(nodes, i + 1, colors, blank, (y, x))
    {
      PaintStep(nodes, i, colors, blank, (y, x));
    }
  }

  /** Before the walk, every pixel is blank. */
  lemma NothingPainted<P>(nodes: seq<Node>, colors: seq<P>, blank: P, c: Canvas<P>, dims: (nat, nat))
    requires |colors| == |nodes| && HasDims(c, dims)
    requires forall y, x | 0 <= y < dims.0 && 0 <= x < dims.1 :: c[y][x] == blank
    ensures Shows(c, nodes, 0, colors, blank, dims)
  {
  }

  /** The leaf loop of the renderers, walking the arena in index order and
      painting each leaf `l` with `colors[l]`. */
  method PaintLeaves<P>(nodes: seq<Node>, dims: (nat, nat), colors: seq<P>, blank: P) returns (out: Canvas<P>)
    requires QuadTree.AllInImage(nodes, dims) && |colors| == |nodes|
    ensures HasDims(out, dims)
    ensures forall y, x | 0 <= y < dims.0 && 0 <= x < dims.1 ::
              out[y][x] == Painted(nodes, |nodes|, colors, blank, (y, x))
  {
    out := Blank(dims, blank);
    NothingPainted(nodes, colors, blank, out, dims);
    var i := 0;
    while i < |nodes|
      invariant i <= |nodes|
      invariant HasDims(out, dims) && Shows(out, nodes, i, colors, blank, dims)
    {
      out := PaintNode(out, nodes, dims, colors, blank, i);
      i := i + 1;
    }
  }

  /** With disjoint leaves, the last leaf holding `p` is the only one. */
  lemma {:induction false} LastLeafUnique(nodes: seq<Node>, i: nat, l: nat, p: Point)
    requires QuadTree.LeavesDisjoint(nodes)
    requires l < i <= |nodes| && QuadTree.IsLeaf(nodes, l) && Contains(nodes[l], p)
    ensures LastLeaf(nodes, i, p) == Some(l)
    decreases i
  {
    if QuadTree.IsLeaf(nodes, i - 1) && Contains(nodes[i - 1], p) {
      assert i - 1 == l;
    } else {
      LastLeafUnique(nodes, i - 1, l, p);
    }
  }

  /** The colour each leaf is painted with, computed up front: `toPixel` of
      the average colour of its rectangle (`blank` for split nodes). */
  method LeafColors<P>(img: Image.ImageData, nodes: seq<Node>, toPixel: RGB -> P, blank: P) returns (colors: seq<P>)
    requires QuadTree.ImageOk(img, (img.height, img.width))
    requires QuadTree.AllInImage(nodes, (img.height, img.width))
    ensures |colors| == |nodes|
    ensures forall l | 0 <= l < |nodes| && nodes[l].children.None? ::
              colors[l] == toPixel(Image.Average(img, nodes[l].topLeft, nodes[l].bottomRight))
  {
    colors := [];
    var i := 0;
    while i < |nodes|
      invariant i <= |nodes| && |colors| == i
      invariant forall l | 0 <= l < i && nodes[l].children.None? ::
                  colors[l] == toPixel(Image.Average(img, nodes[l].topLeft, nodes[l].bottomRight))
    {
      var node := nodes[i];
      var px := blank;
      if node.children.None? {
        assert QuadTree.InImage(node, (img.height, img.width));
        px := toPixel(Image.Average(img, node.topLeft, node.bottomRight));
      }
      var next := colors + [px];
      assert next[i] == px;
      assert forall l | 0 <= l < i :: next[l] == colors[l];
      colors := next;
      i := i + 1;
    }
  }

  /** Once the leaves are disjoint, the walk leaves on every pixel of a
      leaf that leaf's colour, whatever the order of the walk. */
  lemma PaintedLeaves<P>(nodes: seq<Node>, dims: (nat, nat), colors: seq<P>, blank: P, out: Canvas<P>)
    requires QuadTree.AllInImage(nodes, dims) && QuadTree.LeavesDisjoint(nodes) && |colors| == |nodes|
    requires HasDims(out, dims) && Shows(out, nodes, |nodes|, colors, blank, dims)
    ensures forall l: nat, y: nat, x: nat | QuadTree.IsLeaf(nodes, l) && Contains(nodes[l], (y, x)) ::
              QuadTree.InDims((y, x), dims) && out[y][x] == colors[l]
  {
    forall l: nat, y: nat, x: nat | QuadTree.IsLeaf(nodes, l) && Contains(nodes[l], (y, x))
      ensures QuadTree.InDims((y, x), dims) && out[y][x] == colors[l]
    {
      assert QuadTree.InImage(nodes[l], dims);
      LastLeafUnique(nodes, |nodes|, l, (y, x));
      assert out[y][x] == Painted(nodes, |nodes|, colors, blank, (y, x));
    }
  }

  /** Both renderers, over the pixel conversion `toPixel` and the initial
      pixel `blank`: the canvas has the image's size, and every pixel of a
      leaf carries `toPixel` of that leaf's average colour.  The leaves tile
      the image, so this fixes every pixel. */
  method RenderWith<P>(t: QuadTree.Tree, toPixel: RGB -> P, blank: P) returns (out: Canvas<P>)
    requires QuadTree.ImageOk(t.imageData, t.dimensions)
    requires QuadTree.AllInImage(t.nodes, t.dimensions) && QuadTree.LeavesDisjoint(t.nodes)
    ensures HasDims(out, t.dimensions)
    ensures forall l: nat, y: nat, x: nat | QuadTree.IsLeaf(t.nodes, l) && Contains(t.nodes[l], (y, x)) ::
              && QuadTree.InDims((y, x), t.dimensions)
              && out[y][x] == toPixel(Image.Average(t.imageData, t.nodes[l].topLeft, t.nodes[l].bottomRight))
  {
    var colors := LeafColors(t.imageData, t.nodes, toPixel, blank);
    out := PaintLeaves(t.nodes, t.dimensions, colors, blank);
    PaintedLeaves(t.nodes, t.dimensions, colors, blank, out);
    LeafAverages(t, toPixel, colors, out);
  }

  /** The colour a leaf's pixels carry is the one computed for the leaf. */
  lemma LeafAverages<P>(t: QuadTree.Tree, toPixel: RGB -> P, colors: seq<P>, out: Canvas<P>)
    requires QuadTree.ImageOk(t.imageData, t.dimensions) && QuadTree.AllInImage(t.nodes, t.dimensions)
    requires |colors| == |t.nodes| && HasDims(out, t.dimensions)
    requires forall l | 0 <= l < |t.nodes| && t.nodes[l].children.None? ::
               colors[l] == toPixel(Image.Average(t.imageData, t.nodes[l].topLeft, t.nodes[l].bottomRight))
    requires forall l: nat, y: nat, x: nat | QuadTree.IsLeaf(t.nodes, l) && Contains(t.nodes[l], (y, x)) ::
               QuadTree.InDims((y, x), t.dimensions) && out[y][x] == colors[l]
    ensures forall l: nat, y: nat, x: nat | QuadTree.IsLeaf(t.nodes, l) && Contains(t.nodes[l], (y, x)) ::
              && QuadTree.InDims((y, x), t.dimensions)
              && out[y][x] == toPixel(Image.Average(t.imageData, t.nodes[l].topLeft, t.nodes[l].bottomRight))
  {
  }

  /** `render_rgb`: each leaf painted with its average colour, every
      channel cut to 8 bits by `as u8`, on a black canvas. */
  method RenderRgb(t: QuadTree.Tree) returns (out: Canvas<RGB8>)
    requires QuadTree.ImageOk(t.imageData, t.dimensions)
    requires QuadTree.AllInImage(t.nodes, t.dimensions) && QuadTree.LeavesDisjoint(t.nodes)
    ensures HasDims(out, t.dimensions)
    ensures forall l: nat, y: nat, x: nat | QuadTree.IsLeaf(t.nodes, l) && Contains(t.nodes[l], (y, x)) ::
              && QuadTree.InDims((y, x), t.dimensions)
              && out[y][x] == Truncate(Image.Average(t.imageData, t.nodes[l].topLeft, t.nodes[l].bottomRight))
  {
    out := RenderWith(t, Truncate, RGB8(0, 0, 0));
  }

  /** The `Rgba` pixel of `render_rgba`: the colour cut to 8 bits per
      channel, at opacity `MAX_ALPHA`. */
  function ToRgba(c: RGB): (px: RGBA8)
    ensures px.a == MaxAlpha
    ensures RGB(px.r, px.g, px.b) == RGB(c.r % 256, c.g % 256, c.b % 256)
  {
    var t := Truncate(c);
    RGBA8(t.r, t.g, t.b, MaxAlpha)
  }

  /** `render_rgba`: as `render_rgb`, with every painted pixel at opacity
      `MAX_ALPHA` on a transparent canvas. */
  method RenderRgba(t: QuadTree.Tree) returns (out: Canvas<RGBA8>)
    requires QuadTree.ImageOk(t.imageData, t.dimensions)
    requires QuadTree.AllInImage(t.nodes, t.dimensions) && QuadTree.LeavesDisjoint(t.nodes)
    ensures HasDims(out, t.dimensions)
    ensures forall l: nat, y: nat, x: nat | QuadTree.IsLeaf(t.nodes, l) && Contains(t.nodes[l], (y, x)) ::
              && QuadTree.InDims((y, x), t.dimensions)
              && out[y][x] == ToRgba(Image.Average(t.imageData, t.nodes[l].topLeft, t.nodes[l].bottomRight))
  {
    out := RenderWith(t, ToRgba, RGBA8(0, 0, 0, 0));
  }
}

=== FILE: results.dfy ===
/** Failure-compatible return types shared by every module of the model.
    `Result` stands for Rust's `Result<T, String>`: the error carries the
    message the source returns. */
module Results {

  datatype Option<+T> = None | Some(value: T)

  datatype Result<+T> = Ok(value: T) | Err(msg: string) {

    predicate IsFailure() {
      Err?
    }

    function PropagateFailure<U>(): Result<U>
      requires Err?
    {
      Err(msg)
    }

    function Extract(): T
      requires Ok?
    {
      value
    }
  }
}

=== FILE: rgb.dfy ===
/** Three-channel colours: `RGB<T>` of src/image.rs and its componentwise
    arithmetic.  `RGB<u64>` (the accumulator) is `RGB`, with unbounded
    natural channels; `RGB<u8>` (a decoded or rendered pixel) is `RGB8`. */
module Rgb {

  type Byte = x: nat | x < 256

  datatype Channel = R | G | B

  datatype RGB = RGB(r: nat, g: nat, b: nat)

  datatype RGB8 = RGB8(r: Byte, g: Byte, b: Byte)

  function Get(c: RGB, k: Channel): nat {
    match k
    case R => c.r
    case G => c.g
    case B => c.b
  }

  /** `Zero::zero()` for `RGB<u64>`: the identity of colour addition. */
  function Zero(): (z: RGB)
    ensures forall c :: Add(z, c) == c && Add(c, z) == c
  {
    RGB(0, 0, 0)
  }

  /** Componentwise order: `b` can be subtracted from `a` without underflow
      exactly when `Le(b, a)`. */
  predicate Le(a: RGB, b: RGB) {
    a.r <= b.r && a.g <= b.g && a.b <= b.b
  }

  /** All three channels fit in a `u8`. */
  predicate IsByteColor(c: RGB) {
    c.r < 256 && c.g < 256 && c.b < 256
  }

  function Add(a: RGB, b: RGB): (s: RGB)
    ensures forall k :: Get(s, k) == Get(a, k) + Get(b, k)
  {
    RGB(a.r + b.r, a.g + b.g, a.b + b.b)
  }

  lemma AddAssoc(a: RGB, b: RGB, c: RGB)
    ensures Add(Add(a, b), c) == Add(a, Add(b, c))
  {
  }

  lemma AddInterchange(a: RGB, b: RGB, c: RGB, d: RGB)
    ensures Add(Add(a, b), Add(c, d)) == Add(Add(a, c), Add(b, d))
  {
  }

  /** `u64` subtraction panics on underflow with overflow checks on (and wraps
      otherwise), so a caller must show `Le(b, a)`;
      the result is what must be added back to `b` to give `a`. */
  function Sub(a: RGB, b: RGB): (d: RGB)
    requires Le(b, a)
    ensures Add(d, b) == a
    ensures forall k :: Get(d, k) + Get(b, k) == Get(a, k)
  {
    RGB(a.r - b.r, a.g - b.g, a.b - b.b)
  }

  /** Division by a scalar truncates each channel independently. */
  function Div(a: RGB, n: nat): (q: RGB)
    requires n > 0
    ensures forall k :: Get(q, k) * n <= Get(a, k) < (Get(q, k) + 1) * n
  {
    RGB(a.r / n, a.g / n, a.b / n)
  }

  function CompProd(a: RGB, b: RGB): (p: RGB)
    ensures forall k :: Get(p, k) == Get(a, k) * Get(b, k)
  {
    RGB(a.r * b.r, a.g * b.g, a.b * b.b)
  }

  /** `From<RGB<u8>> for RGB<u64>`: lossless widening. */
  function Widen(c: RGB8): (w: RGB)
    ensures IsByteColor(w)
    ensures w.r == c.r && w.g == c.g && w.b == c.b
  {
    RGB(c.r, c.g, c.b)
  }

  /** The `as u8` cast applied to each channel when a colour is written
      to an output pixel: keeps the low eight bits. */
  function Truncate(c: RGB): (t: RGB8)
    ensures forall k :: Get(Widen(t), k) == Get(c, k) % 256
  {
    RGB8(c.r % 256, c.g % 256, c.b % 256)
  }

  /** Widening then casting back is the identity; casting a colour whose
      channels already fit in a byte loses nothing. */
  lemma WidenTruncate(c: RGB8, w: RGB)
    ensures Truncate(Widen(c)) == c
    ensures IsByteColor(w) ==> Widen(Truncate(w)) == w
  {
  }
}

=== FILE: tree.dfy ===
/** `Tree` of src/tree.rs: an append-only arena of quadtree nodes over one
    image, and a max-heap of leaves keyed by their metric.  `refine` splits
    the worst leaf that can still be split. */
module QuadTree {
  import opened Results
  import opened Nodes
  import Image

  /** A heap entry: an arena index and the metric of that node. */
  datatype OrdNode = OrdNode(nodeIndex: nat, metric: nat)

  datatype Ordering = Less | Equal | Greater

  /** `Ord for OrdNode`: entries compare by metric alone. */
  function Cmp(a: OrdNode, b: OrdNode): (o: Ordering)
    ensures o == Less <==> a.metric < b.metric
    ensures o == Greater <==> b.metric < a.metric
  {
    if a.metric < b.metric then Less
    else if a.metric == b.metric then Equal
    else Greater
  }

  /** `PartialEq for OrdNode`: equal metrics make equal entries, whatever
      their nodes. */
  predicate Eq(a: OrdNode, b: OrdNode)
    ensures Eq(a, b) <==> Cmp(a, b) == Equal
  {
    a.metric == b.metric
  }

  /** The comparison is a total preorder whose ties are exactly `Eq`, and
      distinct nodes can tie: the heap's choice among them is arbitrary. */
  lemma CmpTotalPreorder(a: OrdNode, b: OrdNode, c: OrdNode)
    ensures Cmp(a, b) == Equal <==> Eq(a, b)
    ensures Cmp(a, b) == Less <==> Cmp(b, a) == Greater
    ensures Cmp(a, b) != Greater && Cmp(b, c) != Greater ==> Cmp(a, c) != Greater
    ensures Eq(OrdNode(0, a.metric), OrdNode(1, a.metric))
  {
  }

  /** Every non-empty heap has an entry no other entry exceeds. */
  lemma {:induction false} MaxExists(pq: multiset<OrdNode>)
    requires pq != multiset{}
    ensures exists top :: top in pq && forall e | e in pq :: e.metric <= top.metric
    decreases |pq|
  {
    var x :| x in pq;
    var rest := pq - multiset{x};
    assert pq == rest + multiset{x};
    if rest == multiset{} {
      assert forall e | e in pq :: e == x;
    } else {
      MaxExists(rest);
      var m :| m in rest && forall e | e in rest :: e.metric <= m.metric;
      var top := if x.metric <= m.metric then m else x;
      assert forall e | e in pq :: e == x || e in rest;
      assert top in pq && forall e | e in pq :: e.metric <= top.metric;
    }
  }

  /** `BinaryHeap::pop`: `None` on an empty heap, otherwise some entry of
      greatest metric (ties broken arbitrarily) and the heap without it. */
  method PopMax(pq: multiset<OrdNode>) returns (top: Option<OrdNode>, rest: multiset<OrdNode>)
    ensures top.None? <==> pq == multiset{}
    ensures top.None? ==> rest == pq
    ensures top.Some? ==> top.value in pq && rest == pq - multiset{top.value}
    ensures top.Some? ==> forall e | e in rest :: e.metric <= top.value.metric
  {
    if pq == multiset{} {
      return None, pq;
    }
    MaxExists(pq);
    var m :| m in pq && forall e | e in pq :: e.metric <= m.metric;
    return Some(m), pq - multiset{m};
  }

  datatype Tree = Tree(imageData: Image.ImageData, nodes: seq<Node>, pq: multiset<OrdNode>, dimensions: (nat, nat))

  /** `n` is a proper rectangle inside an image of `dims` rows and columns. */
  predicate InImage(n: Node, dims: (nat, nat)) {
    Proper(n) && n.bottomRight.0 < dims.0 && n.bottomRight.1 < dims.1
  }

  predicate IsLeaf(nodes: seq<Node>, l: nat) {
    l < |nodes| && nodes[l].children.None?
  }

  /** The image tables are valid and the dimensions are theirs. */
  ghost predicate ImageOk(img: Image.ImageData, dims: (nat, nat)) {
    Image.Valid(img) && dims == (img.height, img.width)
  }

  /** Every node of the arena is a proper rectangle inside the image. */
  ghost predicate AllInImage(nodes: seq<Node>, dims: (nat, nat)) {
    forall i | 0 <= i < |nodes| :: InImage(nodes[i], dims)
  }

  /** `OrdNode::new`: the entry of node `i`, carrying its metric. */
  function Entry(img: Image.ImageData, nodes: seq<Node>, i: nat): (e: OrdNode)
    requires ImageOk(img, (img.height, img.width)) && i < |nodes| && InImage(nodes[i], (img.height, img.width))
    ensures e.nodeIndex == i
    ensures forall arr | Image.Represents(img, arr) ::
              e.metric == Image.MetricOf(arr, nodes[i].topLeft, nodes[i].bottomRight)
  {
    OrdNode(i, Image.Metric(img, nodes[i].topLeft, nodes[i].bottomRight))
  }

  /** The rectangle of a node, forgetting its children. */
  function Rect(n: Node): Node {
    Leaf(n.topLeft, n.bottomRight)
  }

  /** The metric of a rectangle of the image (0 outside it). */
  ghost function Score(img: Image.ImageData, n: Node): nat {
    if Image.Valid(img) && InImage(n, (img.height, img.width)) then Image.Metric(img, n.topLeft, n.bottomRight) else 0
  }

  ghost function ScoreOf(img: Image.ImageData): Node -> nat {
    n => Score(img, n)
  }

  /** An entry carries the node's index and the metric of its rectangle,
      which is the brute-force metric of the pixels under it. */
  lemma EntryScore(img: Image.ImageData, nodes: seq<Node>, i: nat)
    requires ImageOk(img, (img.height, img.width)) && i < |nodes| && InImage(nodes[i], (img.height, img.width))
    ensures Entry(img, nodes, i) == OrdNode(i, ScoreOf(img)(Rect(nodes[i])))
    ensures forall arr | Image.Represents(img, arr) ::
              Entry(img, nodes, i).metric == Image.MetricOf(arr, nodes[i].topLeft, nodes[i].bottomRight)
  {
  }

  predicate SameRect(a: Node, b: Node) {
    a.topLeft == b.topLeft && a.bottomRight == b.bottomRight
  }

  /** Node `i` was split by `refine`: its children sit in four consecutive
      arena slots, appended when it was split and so all after it, in
      nw/ne/sw/se order, and carry the rectangles `split` computes for it. */
  predicate ChildrenOk(nodes: seq<Node>, i: nat)
    requires i < |nodes| && Proper(nodes[i]) && nodes[i].children.Some?
  {
    var c := nodes[i].children.value;
    && i < c.nw && c.ne == c.nw + 1 && c.sw == c.nw + 2 && c.se == c.nw + 3 && c.se < |nodes|
    && Split(nodes[i]).Some?
    && var q := Split(nodes[i]).value;
    && SameRect(nodes[c.nw], q.0) && SameRect(nodes[c.ne], q.1)
    && SameRect(nodes[c.sw], q.2) && SameRect(nodes[c.se], q.3)
  }

  predicate IsChild(c: NodeChildren, j: nat) {
    j == c.nw || j == c.ne || j == c.sw || j == c.se
  }

  /** Node `j` is a child of the earlier node `i`. */
  predicate ParentOf(nodes: seq<Node>, i: nat, j: nat) {
    i < j < |nodes| && nodes[i].children.Some? && IsChild(nodes[i].children.value, j)
  }

  ghost predicate HasParent(nodes: seq<Node>, j: nat) {
    exists i: nat :: ParentOf(nodes, i, j)
  }

  /** Pixel `p` lies in some leaf... */
  ghost predicate Covered(nodes: seq<Node>, p: Point) {
    exists l: nat :: IsLeaf(nodes, l) && Contains(nodes[l], p)
  }

  /** ...and no two leaves share a pixel. */
  ghost predicate LeavesDisjoint(nodes: seq<Node>) {
    forall l1: nat, l2: nat, p | IsLeaf(nodes, l1) && IsLeaf(nodes, l2) && Contains(nodes[l1], p) && Contains(nodes[l2], p) :: l1 == l2
  }

  predicate InDims(p: Point, dims: (nat, nat)) {
    p.0 < dims.0 && p.1 < dims.1
  }

  /** The arena describes a quadtree over the image: the root is the whole
      image, every split node's children are its quadrants, every other node
      is a child of an earlier one, and the leaves tile the image. */
  ghost predicate Shape(nodes: seq<Node>, dims: (nat, nat)) {
    && 0 < |nodes| && 0 < dims.0 && 0 < dims.1
    && SameRect(nodes[0], Leaf((0, 0), (dims.0 - 1, dims.1 - 1)))
    && AllInImage(nodes, dims)
    && (forall i | 0 <= i < |nodes| && nodes[i].children.Some? :: ChildrenOk(nodes, i))
    && (forall j | 0 < j < |nodes| :: HasParent(nodes, j))
    && (forall p | InDims(p, dims) :: Covered(nodes, p))
    && LeavesDisjoint(nodes)
  }

  /** Number of leaves in the arena. */
  function LeafCount(nodes: seq<Node>): nat {
    if |nodes| == 0 then 0
    else LeafCount(nodes[..|nodes| - 1]) + (if nodes[|nodes| - 1].children.None? then 1 else 0)
  }

  /** Node `i` is a leaf that `split` would cut. */
  predicate Splittable(nodes: seq<Node>, i: nat) {
    IsLeaf(nodes, i) && Proper(nodes[i]) && CanSplit(nodes[i])
  }

  /** Heap entries belong to distinct leaves and carry their `score`. */
  ghost predicate HeapOk(nodes: seq<Node>, pq: multiset<OrdNode>, score: Node -> nat) {
    forall e | e in pq :: IsLeaf(nodes, e.nodeIndex) && e.metric == score(Rect(nodes[e.nodeIndex])) && pq[e] == 1
  }

  /** Every leaf that can still be split waits in the heap. */
  ghost predicate HeapCovers(nodes: seq<Node>, pq: multiset<OrdNode>, score: Node -> nat) {
    forall i: nat | Splittable(nodes, i) :: OrdNode(i, score(Rect(nodes[i]))) in pq
  }

  /** The arena is a quadtree over the image, the heap holds the leaves
      with their scores, and the arena grew four nodes and three leaves at a
      time. */
  ghost predicate Structure(t: Tree, score: Node -> nat) {
    && Shape(t.nodes, t.dimensions)
    && HeapOk(t.nodes, t.pq, score)
    && HeapCovers(t.nodes, t.pq, score)
    && |t.nodes| % 4 == 1
    && LeafCount(t.nodes) == 1 + 3 * (|t.nodes| / 4)
  }

  /** The state invariant `new` establishes and `refine` preserves: the
      scores are the image's metrics. */
  ghost predicate Inv(t: Tree) {
    ImageOk(t.imageData, t.dimensions) && Structure(t, ScoreOf(t.imageData))
  }

  /** What rendering needs of a tree in the state invariant. */
  lemma InvRenderable(t: Tree)
    requires Inv(t)
    ensures ImageOk(t.imageData, t.dimensions)
    ensures AllInImage(t.nodes, t.dimensions) && LeavesDisjoint(t.nodes)
  {
  }

  /** `Tree::new`: one leaf covering the whole image, and the heap holding
      that leaf alone. */
  function NewTree(img: Image.ImageData): (t: Tree)
    requires Image.Valid(img)
    ensures Inv(t)
    ensures t.imageData == img && t.dimensions == (img.height, img.width)
    ensures |t.nodes| == 1 && t.nodes[0] == Leaf((0, 0), (img.height - 1, img.width - 1))
    ensures t.pq == multiset{Entry(img, t.nodes, 0)}
  {
    Image.ValidTables(img);
    var dimensions := (img.height, img.width);
    assert 0 < dimensions.0 && 0 < dimensions.1 by {
      var arr :| Image.Represents(img, arr);
    }
    var root := Leaf((0, 0), (dimensions.0 - 1, dimensions.1 - 1));
    var nodes := [root];
    var t := Tree(img, nodes, multiset{Entry(img, nodes, 0)}, dimensions);
    EntryScore(img, nodes, 0);
    RootStructure(t, ScoreOf(img));
    t
  }

  /** A single leaf over the whole image, alone in the heap, has the
      structure of a tree. */
  lemma RootStructure(t: Tree, score: Node -> nat)
    requires 0 < t.dimensions.0 && 0 < t.dimensions.1
    requires t.nodes == [Leaf((0, 0), (t.dimensions.0 - 1, t.dimensions.1 - 1))]
    requires t.pq == multiset{OrdNode(0, score(Rect(t.nodes[0])))}
    ensures Structure(t, score)
  {
    var nodes := t.nodes;
    var dims := t.dimensions;
    assert Shape(nodes, dims) by {
      forall p | InDims(p, dims) ensures Covered(nodes, p) {
        assert IsLeaf(nodes, 0) && Contains(nodes[0], p);
      }
    }
    assert LeafCount(nodes) == 1 by {
      assert nodes[..0] == [];
    }
    assert |nodes| / 4 == 0;
  }

  /** `push_node`: appends `node` to the arena and returns its index; the
      existing nodes and everything else stay as they were. */
  function PushNode(t: Tree, node: Node): (r: (Tree, nat))
    ensures |r.0.nodes| == |t.nodes| + 1 && r.1 == |t.nodes|
    ensures r.0.nodes[r.1] == node && r.0.nodes[..r.1] == t.nodes
    ensures r.0.imageData == t.imageData && r.0.pq == t.pq && r.0.dimensions == t.dimensions
  {
    var ret := |t.nodes|;
    (t.(nodes := t.nodes + [node]), ret)
  }

  /** The arena after `refine` splits leaf `i`: the four quadrants appended,
      and `i` pointing at them. */
  function SplitNodes(nodes: seq<Node>, i: nat): (r: seq<Node>)
    requires Splittable(nodes, i)
  {
    var q := Split(nodes[i]).value;
    var n := |nodes|;
    nodes[i := nodes[i].(children := Some(NodeChildren(n, n + 1, n + 2, n + 3)))] + [q.0, q.1, q.2, q.3]
  }

  lemma SplitInImage(nodes: seq<Node>, dims: (nat, nat), i: nat)
    requires AllInImage(nodes, dims) && Splittable(nodes, i)
    ensures AllInImage(SplitNodes(nodes, i), dims)
  {
    var q := Split(nodes[i]).value;
    var r := SplitNodes(nodes, i);
    forall j | 0 <= j < |r| ensures InImage(r[j], dims) {
      if j >= |nodes| {
        var c := r[j];
        assert c == q.0 || c == q.1 || c == q.2 || c == q.3;
        assert Contains(c, c.bottomRight);
        assert Contains(nodes[i], c.bottomRight);
      }
    }
  }

  /** What `SplitNodes` keeps and what it adds. */
  lemma SplitNodesFacts(nodes: seq<Node>, i: nat)
    requires Splittable(nodes, i)
    ensures var r := SplitNodes(nodes, i); var n := |nodes|; var q := Split(nodes[i]).value;
            && |r| == n + 4
            && (forall j | 0 <= j < n && j != i :: r[j] == nodes[j])
            && r[i] == nodes[i].(children := Some(NodeChildren(n, n + 1, n + 2, n + 3)))
            && r[n] == q.0 && r[n + 1] == q.1 && r[n + 2] == q.2 && r[n + 3] == q.3
  {
  }

  lemma SplitChildrenOk(nodes: seq<Node>, dims: (nat, nat), i: nat)
    requires Shape(nodes, dims) && Splittable(nodes, i)
    ensures AllInImage(SplitNodes(nodes, i), dims)
    ensures var r := SplitNodes(nodes, i);
            forall j | 0 <= j < |r| && r[j].children.Some? :: ChildrenOk(r, j)
  {
    SplitInImage(nodes, dims, i);
    SplitNodesFacts(nodes, i);
    var r := SplitNodes(nodes, i);
    var n := |nodes|;
    forall j | 0 <= j < |r| && r[j].children.Some? ensures ChildrenOk(r, j) {
      if j == i {
        assert Split(r[i]) == Split(nodes[i]);
      } else {
        assert j < n && r[j] == nodes[j];
        assert ChildrenOk(nodes, j);
        var c := nodes[j].children.value;
        assert SameRect(r[c.nw], nodes[c.nw]) && SameRect(r[c.ne], nodes[c.ne]);
        assert SameRect(r[c.sw], nodes[c.sw]) && SameRect(r[c.se], nodes[c.se]);
      }
    }
  }

  lemma SplitParents(nodes: seq<Node>, dims: (nat, nat), i: nat)
    requires Shape(nodes, dims) && Splittable(nodes, i)
    ensures var r := SplitNodes(nodes, i);
            forall j | 0 < j < |r| :: HasParent(r, j)
  {
    SplitNodesFacts(nodes, i);
    var r := SplitNodes(nodes, i);
    var n := |nodes|;
    forall j | 0 < j < |r| ensures HasParent(r, j) {
      if j >= n {
        assert ParentOf(r, i, j);
      } else {
        assert HasParent(nodes, j);
        var p: nat :| ParentOf(nodes, p, j);
        assert p != i && r[p] == nodes[p];
        assert ParentOf(r, p, j);
      }
    }
  }

  lemma SplitCovered(nodes: seq<Node>, dims: (nat, nat), i: nat)
    requires Shape(nodes, dims) && Splittable(nodes, i)
    ensures var r := SplitNodes(nodes, i);
            forall p | InDims(p, dims) :: Covered(r, p)
  {
    SplitNodesFacts(nodes, i);
    var r := SplitNodes(nodes, i);
    var n := |nodes|;
    var q := Split(nodes[i]).value;
    forall p | InDims(p, dims) ensures Covered(r, p) {
      assert Covered(nodes, p);
      var l: nat :| IsLeaf(nodes, l) && Contains(nodes[l], p);
      if l != i {
        assert IsLeaf(r, l) && Contains(r[l], p);
      } else if Contains(q.0, p) {
        assert IsLeaf(r, n) && Contains(r[n], p);
      } else if Contains(q.1, p) {
        assert IsLeaf(r, n + 1) && Contains(r[n + 1], p);
      } else if Contains(q.2, p) {
        assert IsLeaf(r, n + 2) && Contains(r[n + 2], p);
      } else {
        assert IsLeaf(r, n + 3) && Contains(r[n + 3], p);
      }
    }
  }

  /** A leaf other than `i` shares no pixel with a quadrant of `i`. */
  lemma OldLeafApart(nodes: seq<Node>, dims: (nat, nat), i: nat, l: nat, c: nat, p: Point)
    requires Shape(nodes, dims) && Splittable(nodes, i)
    requires IsLeaf(nodes, l) && l != i
    requires |nodes| <= c < |nodes| + 4 && Contains(SplitNodes(nodes, i)[c], p)
    ensures !Contains(nodes[l], p)
  {
    SplitNodesFacts(nodes, i);
    assert Contains(nodes[i], p);
  }

  lemma SplitDisjoint(nodes: seq<Node>, dims: (nat, nat), i: nat)
    requires Shape(nodes, dims) && Splittable(nodes, i)
    ensures LeavesDisjoint(SplitNodes(nodes, i))
  {
    SplitNodesFacts(nodes, i);
    var r := SplitNodes(nodes, i);
    var n := |nodes|;
    forall l1: nat, l2: nat, p | IsLeaf(r, l1) && IsLeaf(r, l2) && Contains(r[l1], p) && Contains(r[l2], p)
      ensures l1 == l2
    {
      if l1 < n && l2 < n {
        assert IsLeaf(nodes, l1) && IsLeaf(nodes, l2);
      } else if l1 < n {
        OldLeafApart(nodes, dims, i, l1, l2, p);
        assert false;
      } else if l2 < n {
        OldLeafApart(nodes, dims, i, l2, l1, p);
        assert false;
      } else {
        NewLeavesApart(nodes, i, l1, l2, p);
      }
    }
  }

  /** Two of the four new quadrants share no pixel. */
  lemma NewLeavesApart(nodes: seq<Node>, i: nat, c1: nat, c2: nat, p: Point)
    requires Splittable(nodes, i)
    requires |nodes| <= c1 < |nodes| + 4 && |nodes| <= c2 < |nodes| + 4
    requires Contains(SplitNodes(nodes, i)[c1], p) && Contains(SplitNodes(nodes, i)[c2], p)
    ensures c1 == c2
  {
    var q := Split(nodes[i]).value;
    var r := SplitNodes(nodes, i);
    var n := |nodes|;
    assert r[n] == q.0 && r[n + 1] == q.1 && r[n + 2] == q.2 && r[n + 3] == q.3;
    assert Disjoint(q.0, q.1) && Disjoint(q.0, q.2) && Disjoint(q.0, q.3);
    assert Disjoint(q.1, q.2) && Disjoint(q.1, q.3) && Disjoint(q.2, q.3);
  }

  /** Splitting a leaf keeps the arena a quadtree whose leaves tile the image. */
  lemma SplitShape(nodes: seq<Node>, dims: (nat, nat), i: nat)
    requires Shape(nodes, dims) && Splittable(nodes, i)
    ensures Shape(SplitNodes(nodes, i), dims)
  {
    SplitNodesFacts(nodes, i);
    SplitChildrenOk(nodes, dims, i);
    SplitParents(nodes, dims, i);
    SplitCovered(nodes, dims, i);
    SplitDisjoint(nodes, dims, i);
  }

  lemma LeafCountAppend(s: seq<Node>, x: Node)
    ensures LeafCount(s + [x]) == LeafCount(s) + (if x.children.None? then 1 else 0)
  {
    assert (s + [x])[..|s|] == s;
  }

  /** Turning one leaf into a split node removes exactly one leaf. */
  lemma {:induction false} LeafCountUpdate(s: seq<Node>, i: nat, v: Node)
    requires i < |s| && s[i].children.None? && v.children.Some?
    ensures LeafCount(s[i := v]) + 1 == LeafCount(s)
    decreases |s|
  {
    var last := |s| - 1;
    if i == last {
      assert s[i := v][..last] == s[..last];
    } else {
      assert s[i := v][..last] == s[..last][i := v];
      LeafCountUpdate(s[..last], i, v);
    }
  }

  /** A split trades one leaf for four: three more leaves, four more nodes. */
  lemma SplitLeafCount(nodes: seq<Node>, i: nat)
    requires Splittable(nodes, i)
    ensures LeafCount(SplitNodes(nodes, i)) == LeafCount(nodes) + 3
  {
    var q := Split(nodes[i]).value;
    var n := |nodes|;
    var u := nodes[i := nodes[i].(children := Some(NodeChildren(n, n + 1, n + 2, n + 3)))];
    LeafCountUpdate(nodes, i, u[i]);
    LeafCountAppend(u, q.0);
    LeafCountAppend(u + [q.0], q.1);
    LeafCountAppend(u + [q.0] + [q.1], q.2);
    LeafCountAppend(u + [q.0] + [q.1] + [q.2], q.3);
    assert SplitNodes(nodes, i) == u + [q.0] + [q.1] + [q.2] + [q.3];
  }

  /** Heap after `refine` splits leaf `i`: the heap it popped down to, plus
      entries for the four new leaves. */
  ghost function SplitHeap(nodes: seq<Node>, rest: multiset<OrdNode>, i: nat, score: Node -> nat): multiset<OrdNode>
    requires Splittable(nodes, i)
  {
    var q := Split(nodes[i]).value;
    var n := |nodes|;
    rest + multiset{OrdNode(n, score(Rect(q.0))), OrdNode(n + 1, score(Rect(q.1))),
                    OrdNode(n + 2, score(Rect(q.2))), OrdNode(n + 3, score(Rect(q.3)))}
  }

  /** The heap after a split holds distinct leaves with their scores, given
      that the popped heap did and no longer held `i`. */
  lemma SplitHeapOk(nodes: seq<Node>, rest: multiset<OrdNode>, i: nat, score: Node -> nat)
    requires Splittable(nodes, i)
    requires HeapOk(nodes, rest, score) && forall e | e in rest :: e.nodeIndex != i
    ensures HeapOk(SplitNodes(nodes, i), SplitHeap(nodes, rest, i, score), score)
  {
    SplitNodesFacts(nodes, i);
    var r := SplitNodes(nodes, i);
    var n := |nodes|;
    var q := Split(nodes[i]).value;
    var added := multiset{OrdNode(n, score(Rect(q.0))), OrdNode(n + 1, score(Rect(q.1))),
                          OrdNode(n + 2, score(Rect(q.2))), OrdNode(n + 3, score(Rect(q.3)))};
    var pq := SplitHeap(nodes, rest, i, score);
    assert pq == rest + added;
    forall e | e in pq ensures IsLeaf(r, e.nodeIndex) && e.metric == score(Rect(r[e.nodeIndex])) && pq[e] == 1 {
      if e in rest {
        assert e.nodeIndex < n && e.nodeIndex != i;
        assert r[e.nodeIndex] == nodes[e.nodeIndex];
        assert e !in added;
      } else {
        assert e in added;
        assert n <= e.nodeIndex;
      }
    }
  }

  /** The heap after a split still holds every leaf that can be split. */
  lemma SplitHeapCovers(nodes: seq<Node>, rest: multiset<OrdNode>, i: nat, score: Node -> nat)
    requires Splittable(nodes, i)
    requires forall j: nat | Splittable(nodes, j) && j != i :: OrdNode(j, score(Rect(nodes[j]))) in rest
    ensures HeapCovers(SplitNodes(nodes, i), SplitHeap(nodes, rest, i, score), score)
  {
    SplitNodesFacts(nodes, i);
    var r := SplitNodes(nodes, i);
    var n := |nodes|;
    var pq := SplitHeap(nodes, rest, i, score);
    forall j: nat | Splittable(r, j) ensures OrdNode(j, score(Rect(r[j]))) in pq {
      if j < n {
        assert j != i && r[j] == nodes[j];
      }
    }
  }

  /** `refine`'s successful step preserves the structure, whatever leaves it
      dropped while popping down to `rest`. */
  lemma SplitStructure(t: Tree, rest: multiset<OrdNode>, i: nat, score: Node -> nat)
    requires Structure(t, score) && Splittable(t.nodes, i)
    requires rest <= t.pq && forall e | e in rest :: e.nodeIndex != i
    requires forall j: nat | Splittable(t.nodes, j) && j != i :: OrdNode(j, score(Rect(t.nodes[j]))) in rest
    ensures Structure(Tree(t.imageData, SplitNodes(t.nodes, i), SplitHeap(t.nodes, rest, i, score), t.dimensions), score)
  {
    var next := Tree(t.imageData, SplitNodes(t.nodes, i), SplitHeap(t.nodes, rest, i, score), t.dimensions);
    assert HeapOk(t.nodes, rest, score) by {
      forall e | e in rest ensures IsLeaf(t.nodes, e.nodeIndex) && e.metric == score(Rect(t.nodes[e.nodeIndex])) && rest[e] == 1 {
        assert e in t.pq;
      }
    }
    SplitShape(t.nodes, t.dimensions, i);
    SplitHeapOk(t.nodes, rest, i, score);
    SplitHeapCovers(t.nodes, rest, i, score);
    SplitLeafCount(t.nodes, i);
    SplitNodesFacts(t.nodes, i);
    assert |next.nodes| / 4 == |t.nodes| / 4 + 1;
  }

  /** With no leaf left to split, the drained heap still satisfies the
      structure. */
  lemma DrainedStructure(t: Tree, score: Node -> nat)
    requires Structure(t, score)
    requires forall j: nat :: !Splittable(t.nodes, j)
    ensures Structure(t.(pq := multiset{}), score)
  {
  }

  /** One successful `refine` from `t` to `next`: it split leaf `i`, a
      splittable leaf of greatest score; the arena is `t`'s with the four
      quadrants of `i` appended as `i`'s children; the heap is what was
      popped down to, minus `i`, plus the four new leaves. */
  ghost predicate Stepped(t: Tree, next: Tree, i: nat, score: Node -> nat) {
    && Splittable(t.nodes, i)
    && (forall j: nat | Splittable(t.nodes, j) :: score(Rect(t.nodes[j])) <= score(Rect(t.nodes[i])))
    && next.imageData == t.imageData && next.dimensions == t.dimensions
    && next.nodes == SplitNodes(t.nodes, i)
    && exists rest :: rest <= t.pq - multiset{OrdNode(i, score(Rect(t.nodes[i])))}
                      && next.pq == SplitHeap(t.nodes, rest, i, score)
  }

  /** `e` is a right choice for `refine` to split, leaving the heap `rest`:
      its leaf can be split, it carries that leaf's score, which no other
      splittable leaf exceeds, and `rest` is what remains of the heap
      without `e`, still holding every other splittable leaf and no second
      entry of `e`'s. */
  ghost predicate Chosen(t: Tree, e: OrdNode, rest: multiset<OrdNode>, score: Node -> nat) {
    && Splittable(t.nodes, e.nodeIndex)
    && e == OrdNode(e.nodeIndex, score(Rect(t.nodes[e.nodeIndex])))
    && (forall j: nat | Splittable(t.nodes, j) :: score(Rect(t.nodes[j])) <= e.metric)
    && rest <= t.pq - multiset{e}
    && (forall x | x in rest :: x.nodeIndex != e.nodeIndex)
    && (forall j: nat | Splittable(t.nodes, j) && j != e.nodeIndex :: OrdNode(j, score(Rect(t.nodes[j]))) in rest)
  }

  /** The entry the popping loop stops at, with the heap left behind, is a
      right choice. */
  lemma StepFacts(t: Tree, pq: multiset<OrdNode>, rest: multiset<OrdNode>, e: OrdNode, score: Node -> nat)
    requires Structure(t, score) && pq <= t.pq && e in pq && rest == pq - multiset{e}
    requires forall x | x in rest :: x.metric <= e.metric
    requires forall j: nat | Splittable(t.nodes, j) :: OrdNode(j, score(Rect(t.nodes[j]))) in pq
    requires Splittable(t.nodes, e.nodeIndex)
    ensures Chosen(t, e, rest, score)
  {
    assert HeapOk(t.nodes, t.pq, score);
    assert e in t.pq;
    forall x | x in rest ensures x.nodeIndex != e.nodeIndex {
      assert x in t.pq;
      if x.nodeIndex == e.nodeIndex {
        assert false;
      }
    }
  }

  /** The part of `refine` that appends the four quadrants of leaf `idx`
      with `push_node` and records their indices as its children. */
  method SplitLeaf(t: Tree, idx: nat) returns (cur: Tree)
    requires Splittable(t.nodes, idx)
    ensures cur == t.(nodes := SplitNodes(t.nodes, idx))
  {
    var (nw, ne, sw, se) := Split(t.nodes[idx]).value;
    cur := t;
    var pushed := PushNode(cur, nw);
    cur := pushed.0;
    var nwIndex := pushed.1;
    pushed := PushNode(cur, ne);
    cur := pushed.0;
    var neIndex := pushed.1;
    pushed := PushNode(cur, sw);
    cur := pushed.0;
    var swIndex := pushed.1;
    pushed := PushNode(cur, se);
    cur := pushed.0;
    var seIndex := pushed.1;
    cur := cur.(nodes := cur.nodes[idx := cur.nodes[idx].(children := Some(NodeChildren(nwIndex, neIndex, swIndex, seIndex)))]);
    assert cur.nodes == SplitNodes(t.nodes, idx);
  }

  /** One `self.pq.push(OrdNode::new(..))` of `refine`'s loop: the entry of a new
      node carries that node's score. */
  method PushEntry(img: Image.ImageData, nodes: seq<Node>, j: nat, ghost node: Node, pq: multiset<OrdNode>)
    returns (next: multiset<OrdNode>)
    requires ImageOk(img, (img.height, img.width)) && j < |nodes| && nodes[j] == node
    requires InImage(node, (img.height, img.width))
    ensures next == pq + multiset{OrdNode(j, ScoreOf(img)(Rect(node)))}
  {
    EntryScore(img, nodes, j);
    next := pq + multiset{Entry(img, nodes, j)};
  }

  /** The four heap pushes of `refine`'s loop over the new children, for the quadrants `q`
      stored at arena slots `n` to `n + 3`. */
  method PushChildren(img: Image.ImageData, nodes: seq<Node>, n: nat, ghost q: (Node, Node, Node, Node),
                      pq: multiset<OrdNode>) returns (next: multiset<OrdNode>)
    requires ImageOk(img, (img.height, img.width)) && |nodes| == n + 4
    requires nodes[n] == q.0 && nodes[n + 1] == q.1 && nodes[n + 2] == q.2 && nodes[n + 3] == q.3
    requires InImage(q.0, (img.height, img.width)) && InImage(q.1, (img.height, img.width))
    requires InImage(q.2, (img.height, img.width)) && InImage(q.3, (img.height, img.width))
    ensures next == pq + multiset{OrdNode(n, ScoreOf(img)(Rect(q.0))), OrdNode(n + 1, ScoreOf(img)(Rect(q.1))),
                                  OrdNode(n + 2, ScoreOf(img)(Rect(q.2))), OrdNode(n + 3, ScoreOf(img)(Rect(q.3)))}
  {
    next := PushEntry(img, nodes, n, q.0, pq);
    next := PushEntry(img, nodes, n + 1, q.1, next);
    next := PushEntry(img, nodes, n + 2, q.2, next);
    next := PushEntry(img, nodes, n + 3, q.3, next);
  }

  /** The loop of `refine` that pushes the entries of the four new leaves
      onto the heap left after popping. */
  method PushEntries(t: Tree, rest: multiset<OrdNode>, idx: nat, cur: Tree) returns (next: Tree)
    requires ImageOk(t.imageData, t.dimensions) && AllInImage(t.nodes, t.dimensions) && Splittable(t.nodes, idx)
    requires cur == Tree(t.imageData, SplitNodes(t.nodes, idx), rest, t.dimensions)
    ensures next == cur.(pq := SplitHeap(t.nodes, rest, idx, ScoreOf(t.imageData)))
  {
    var img := t.imageData;
    var n := |t.nodes|;
    ghost var q := Split(t.nodes[idx]).value;
    SplitInImage(t.nodes, t.dimensions, idx);
    SplitNodesFacts(t.nodes, idx);
    assert InImage(cur.nodes[n], t.dimensions) && InImage(cur.nodes[n + 1], t.dimensions);
    assert InImage(cur.nodes[n + 2], t.dimensions) && InImage(cur.nodes[n + 3], t.dimensions);
    var pq := PushChildren(img, cur.nodes, n, q, rest);
    next := cur.(pq := pq);
  }

  /** The popping loop of `refine`: entries come off the heap greatest
      metric first, those whose node `split` refuses are dropped, and the
      first whose node can be split is returned with the heap that is left.
      `None` once the heap runs dry, which happens exactly when no leaf can
      be split. */
  method PopSplittable(t: Tree, ghost score: Node -> nat) returns (top: Option<OrdNode>, rest: multiset<OrdNode>)
    requires Structure(t, score)
    ensures top.None? <==> forall i: nat :: !Splittable(t.nodes, i)
    ensures top.None? ==> rest == multiset{}
    ensures top.Some? ==> Chosen(t, top.value, rest, score)
  {
    var pq := t.pq;
    while true
      invariant pq <= t.pq
      invariant forall j: nat | Splittable(t.nodes, j) :: OrdNode(j, score(Rect(t.nodes[j]))) in pq
      decreases |pq|
    {
      var popped;
      popped, rest := PopMax(pq);
      if popped.None? {
        return None, rest;
      }
      var e := popped.value;
      var idx := e.nodeIndex;
      assert e in t.pq;
      assert IsLeaf(t.nodes, idx) && InImage(t.nodes[idx], t.dimensions);
      if Split(t.nodes[idx]).Some? {
        StepFacts(t, pq, rest, e, score);
        return popped, rest;
      }
      pq := rest;
    }
  }

  /** `refine`: splits a splittable leaf of greatest metric, appending its
      quadrants to the arena and their entries to the heap, after dropping
      from the heap the entries popped before it; `Err` with the heap
      drained exactly when no leaf can be split.  The invariant is kept. */
  method Refine(t: Tree) returns (next: Tree, res: Result<()>)
    requires Inv(t)
    ensures Inv(next)
    ensures next.imageData == t.imageData && next.dimensions == t.dimensions
    ensures res.Err? <==> forall i: nat :: !Splittable(t.nodes, i)
    ensures res.Err? ==> res.msg == "no more nodes to refine" && next == t.(pq := multiset{})
    ensures res.Ok? ==> exists i: nat :: Stepped(t, next, i, ScoreOf(t.imageData))
    ensures res.Ok? ==> |next.nodes| == |t.nodes| + 4
  {
    ghost var score := ScoreOf(t.imageData);
    var top, rest := PopSplittable(t, score);
    if top.None? {
      DrainedStructure(t, score);
      return t.(pq := multiset{}), Err("no more nodes to refine");
    }
    var idx := top.value.nodeIndex;
    var cur := SplitLeaf(t.(pq := rest), idx);
    next := PushEntries(t, rest, idx, cur);
    SplitStructure(t, rest, idx, score);
    SplitNodesFacts(t.nodes, idx);
    assert Stepped(t, next, idx, score);
    return next, Ok(());
  }
}
